=== FILE: README.md ===
# taita-frontend, the logic under the HTTP glue

This project models in Dafny the four pieces of deterministic logic in the
taita multi-tenant blog frontend, and proves properties of them:

- **Tenant resolution** (`src/utils/tenant.js`). `getTenantInfo` classifies a
  request's `Host` header into subdomain, domain and a development flag.
  `fetchTenantData` calls the API for that tenant.
- **The proxy endpoint** (`src/pages/api/proxy.js`, `post`). It validates the
  request, builds the upstream URL and headers, decides whether to send the
  body, and normalises the upstream answer into JSON or text.
- **The API client** (`src/utils/api.js`, `ApiClient`). It derives the
  subdomain from the page's host, tries the upstream API directly, and falls
  back to the proxy with the query split off into an object.
- **The comment widget** (`src/components/CommentForm.js`). It is a
  three-step machine: email, then one-time code (OTP), then comment. It has an
  in-flight flag, a token held in memory and in `localStorage`, and resolves
  the post's numeric id.

Network results are inputs. A `fetch` is an `Http.Outcome`: it either rejects
with a message, or resolves to a status, a content type, a body text, and
what `response.json()` makes of that text. Nothing performs I/O.

Modules:

| module | file | what it holds |
|---|---|---|
| `Wrappers` | wrappers.dfy | `Option` and `Result` |
| `Strings` | strings.dfy | the JavaScript string operations the code uses: `includes`, `split`, `join`, `trim`, `/^\d+$/`, `Number` |
| `Json` | json.dfy | parsed JSON values, truthiness, property access, `String(v)` |
| `Http` | http.dfy | responses, fetch outcomes, body shapes, leading-slash normalisation, the API base |
| `Query` | query.dfy | `URLSearchParams` parsing and serialising, without percent-encoding |
| `Tenant` | tenant.dfy | `getTenantInfo` and `fetchTenantData` |
| `Proxy` | proxy.dfy | `post` |
| `ApiClient` | api_client.dfy | `ApiClient`: host info, direct and proxied requests, the fallback |
| `CommentForm` | comment_form.dfy | the widget's state, handlers and timers |

A few facts about the code that the model keeps:

- `getTenantInfo` gives two-label hosts and `www.` hosts the empty
  subdomain (`src/utils/tenant.js:35-40`). Only development hosts get
  `"demo"` (`src/utils/tenant.js:16-24`).
- The API client's direct request goes to the base plus the normalised
  endpoint (a leading `/` added when missing), query included, with the four default headers and the caller's
  (`src/utils/api.js:43-59`).
- The proxy adds `Origin` and `Referer` to the upstream request
  (`src/pages/api/proxy.js:59-60`).
- One `fetch` can reach the proxy twice. A non-`ok` direct answer calls the
  proxy inside the `try`, and when that call throws, the `catch` calls it
  again (`src/utils/api.js:84-94`; see `ApiClient.Fetch`).
- The proxy endpoint exports only `post` (`src/pages/api/proxy.js:4`).
- The proxy builds every reply with a string body, so the `Response`
  constructor throws for some upstream statuses and the caller gets a 500
  (`src/pages/api/proxy.js:94-121`). It throws a `RangeError` for a status
  outside 200 to 599, and a `TypeError` for the null body statuses of the
  WHATWG Fetch standard that remain: 204, 205 and 304 (101 and 103 are null
  body statuses too, but fall under the range check first). See
  `Proxy.NoContentIsAnError`.
- An answer to a `HEAD` request has no body. A `json()` that rejects on it
  consumes nothing, so the fallback `text()` gives `""` (see
  `Proxy.HeadRelaysEmptyText`).

## Model

| member | source | states |
|---|---|---|
| Strings.Includes | src/utils/tenant.js:16 | `s.includes(sub)` holds exactly when `sub` occurs at some position of `s` |
| Strings.Split | src/utils/tenant.js:29 | `split` on one character yields at least one piece, and no piece contains the separator |
| Strings.JoinSplit | src/utils/tenant.js:29-34 | joining the pieces of a split gives back the original string |
| Strings.SplitJoin | src/utils/tenant.js:34 | splitting a join of separator-free pieces gives back the pieces |
| Strings.SplitCount | src/utils/tenant.js:29-38 | the number of pieces is one more than the number of separators, so "n labels" means "n-1 dots" |
| Strings.FirstLabel | src/utils/api.js:23 | `split(sep)[0]` is a separator-free prefix, followed by the separator when there is one, else the whole string |
| Strings.Trim | src/components/CommentForm.js:360 | `trim()` is the infix of the input framed by whitespace, has no whitespace at either end, and is empty exactly when the input is all whitespace |
| Strings.TrimIdempotent | src/components/CommentForm.js:360 | trimming twice is trimming once |
| Strings.DigitsValueOfDecimal | src/components/CommentForm.js:325-326 | `Number` of the decimal text of `n` is `n` |
| Http.ApiBase | src/utils/tenant.js:60 | the base is the configured `PUBLIC_API_URL` when it is non-empty, else `https://taita-api.onrender.com/api`, and never empty |
| Http.WithLeadingSlash | src/utils/api.js:43 | the path gets a leading `/` exactly when it lacks one, and nothing else changes |
| Query.ParsePair | src/utils/api.js:117 | a segment splits at its first `=`, and a segment without `=` is a key with an empty value |
| Query.ToMap | src/utils/api.js:118-120 | the object built from the pairs has exactly the pairs' keys, each holding the value of its last pair |
| Query.ParseSerialize | src/pages/api/proxy.js:27-33 | serialising well-formed pairs and parsing them back gives the same pairs, in order |
| Tenant.GetTenantInfo | src/utils/tenant.js:6-50 | the host is reported unchanged (a missing header reads as ""), and `isLocalhost` holds exactly when "localhost" or "127.0.0.1" occurs anywhere in it |
| Tenant.LocalTenant | src/utils/tenant.js:16-24 | a development host has no domain, and its subdomain is the non-empty `subdomain` parameter, else "demo", also when the URL does not parse |
| Tenant.SubdomainTenant | src/utils/tenant.js:31-34 | a host of three or more labels not starting "www." is its subdomain, a dot, and its domain |
| Tenant.TwoLabelTenant | src/utils/tenant.js:35-37 | a two-label production host has no subdomain, and its domain is the whole host |
| Tenant.WwwTenant | src/utils/tenant.js:38-40 | a "www." host of three or more labels has no subdomain, and its domain follows "www." |
| Tenant.SingleLabelTenant | src/utils/tenant.js:8-13 | a single-label production host, including the empty one, gives neither subdomain nor domain |
| Tenant.FetchTenantData | src/utils/tenant.js:59-92 | the `subdomain` parameter is set exactly when the tenant has a subdomain; the headers are `Accept` (JSON) and `Host` (the tenant host) with a caller header of the same spelling overriding each, and no others; a rejected fetch, a non-`ok` answer or a body that does not parse gives `null` instead of throwing |
| Proxy.Assigned | src/pages/api/proxy.js:28-32 | exactly the entries whose value is not null are appended, and nothing else |
| Proxy.AssignedConcat | src/pages/api/proxy.js:28-33 | the entries are appended in the object's order: the kept entries of a concatenation are the kept entries of each part, one after the other |
| Proxy.QuerySuffixShape | src/pages/api/proxy.js:26-34 | a query suffix is appended exactly when `queryParams` has a key, and it is a bare `?` when every value is null |
| Proxy.DeriveSubdomain | src/pages/api/proxy.js:37-46 | an explicit subdomain wins; otherwise a dotted host not starting "www." gives its first label, then a host containing "localhost" gives "demo", else "" |
| Proxy.SubdomainHeader | src/pages/api/proxy.js:58 | the `X-Taita-Subdomain` header is the subdomain when there is one and `demo` otherwise, so it is never empty |
| Proxy.UpstreamBody | src/pages/api/proxy.js:65-67 | a body is sent exactly when it is truthy and the method is POST, PUT or PATCH, and it is sent serialised |
| Proxy.Prepare | src/pages/api/proxy.js:21-67 | the upstream request goes to the base, the normalised endpoint and the query suffix; it carries the method, exactly the six fixed headers with the inbound host and the derived subdomain (or `demo`), and a serialised body exactly when the body is truthy and the method is POST, PUT or PATCH |
| Proxy.Respond | src/pages/api/proxy.js:70-121 | with the intended text fallback: a thrown fetch is a 500 with its message, and a status the `Response` constructor refuses is a 500 with the constructor's error; otherwise the status is mirrored, parsed JSON is relayed as JSON, and unparsable JSON and other bodies are relayed as text; a reply is labelled JSON exactly when its body is JSON |
| Proxy.RespondAsWritten | src/pages/api/proxy.js:70-121 | as written: a JSON parse failure on an answer with a body (not a `HEAD` answer, not a null body status) ends in the 500 handler with the consumed-body error, whatever the status; a null body status ends there with the constructor's error; every other outcome, every `HEAD` answer included, gets the intended reply; every status is 500 or the upstream one |
| Proxy.OutOfRangeFailsOnBodyFirst | src/pages/api/proxy.js:77-121 | for a status of 600 with an unparsable JSON body, the code as written fails on the consumed body before it builds a reply, where the intended fallback reaches the constructor's range error |
| Proxy.UnparsableJsonNeverFallsBack | src/pages/api/proxy.js:78-86 | an HTML page labelled JSON gets a 500 from the code as written, where a `text/plain` copy was meant |
| Proxy.Post | src/pages/api/proxy.js:4-123 | with `AsWritten`, the handler as it stands (with `ReadsText`, the corrected fallback): an unreadable or `null` request is a 500 and a missing or empty endpoint is a 400, both with nothing sent upstream; otherwise exactly the prepared upstream request is made (URL, method, subdomain header and body as above) and the reply is the chosen responder's for the request's method |
| Proxy.PostStatus | src/pages/api/proxy.js:11-19 | every reply is the proxy's own 400 or 500, or the upstream status; with nothing sent upstream it is a JSON 400 or 500 |
| Proxy.PlainTextPassesThrough | src/pages/api/proxy.js:87-109 | a `text/plain` answer is relayed unchanged with its status, except under a status the `Response` constructor refuses, which is a 500 |
| Proxy.HeadRelaysEmptyText | src/pages/api/proxy.js:77-109 | a proxied `HEAD` request answered 200 as JSON with no body is relayed as an empty `text/plain` 200, by the code as written too |
| Proxy.NoContentIsAnError | src/pages/api/proxy.js:94-121 | an upstream 204 reaches the caller as a JSON 500 naming the invalid status, under either fallback |
| ApiClient.NewClient | src/utils/api.js:8-10 | the base URL is the argument, else `PUBLIC_API_URL`, else the default |
| ApiClient.GetHostInfo | src/utils/api.js:15-33 | on the server, localhost/demo; in a browser, a dotted host starting with neither "www." nor "localhost" gives its first label, otherwise "demo" for a host containing "localhost", else "" |
| ApiClient.DirectBody | src/utils/api.js:62-64 | a body is attached exactly for POST, PUT or PATCH with a truthy body; a string is sent as it is and anything else serialised |
| ApiClient.DirectRequestFor | src/utils/api.js:43-59 | the URL is the base plus the normalised endpoint; the headers are the defaults and the caller's, a caller header of the same spelling winning and every default they do not name kept; the body is `DirectBody`'s |
| ApiClient.SplitEndpoint | src/utils/api.js:113-121 | the endpoint is the separator-free text before the first `?` (all of it when there is none); the parameters are those parsed from the text between the first and any second `?`, and there are none without a `?` |
| ApiClient.PayloadFor | src/utils/api.js:124-138 | the payload's endpoint and parameters are the split of the normalised endpoint at its first `?`, so the endpoint starts with `/` and holds no `?`; the method defaults to GET; the body is `options.body || null`; the subdomain is the client's |
| ApiClient.DirectResult | src/utils/api.js:69-81 | the direct attempt succeeds exactly for an `ok` answer whose body can be read, giving JSON for a JSON content type and text otherwise |
| ApiClient.ProxyResult | src/utils/api.js:141-156 | a non-`ok` proxy answer throws "Error del proxy: " plus its text; a rejected fetch throws its error; an `ok` answer reads like a direct one |
| ApiClient.Fetch | src/utils/api.js:66-95 | one direct call, then only proxy calls with the same payload; a usable direct answer makes no proxy call and an unusable one at least one; a third call happens exactly after a non-`ok` direct answer and a failed first proxy call |
| ApiClient.FetchTriesStrategiesInOrder | src/utils/api.js:66-95 | `fetch` tries direct, then proxy, then proxy again only after a non-`ok` answer, stopping at the first success and returning or throwing what the last one tried gives |
| ApiClient.UnavailableThenProxy | src/utils/api.js:84-87 | a 503 followed by a working proxy costs exactly one proxy call |
| ApiClient.UnparsableDirectJsonUsesProxy | src/utils/api.js:76-77 | an `ok` direct answer labelled JSON that does not parse falls through to the proxy |
| ApiClient.SplitEndpointOfQuery | src/utils/api.js:115-121 | an endpoint followed by a well-formed query splits into that endpoint and the query's parameters |
| ApiClient.ProxyRebuildsDirectUrl | src/utils/api.js:113-137 | an endpoint with a query whose keys and values percent-encoding leaves unchanged, sent through the proxy, reaches the URL the direct request used |
| ApiClient.ProxyKeepsClientSubdomain | src/utils/api.js:15-33 | the proxy, handed the subdomain a browser client derived, keeps it, so both routes name the same tenant |
| ApiClient.TwoLabelHostsDisagree | src/utils/api.js:22-23 | on a two-label host the client names the first label as tenant where server-side resolution names none |
| ApiClient.BodyThroughProxy | src/utils/api.js:135 | the proxy attaches a body exactly when the direct request does, but it serialises a string body a second time |
| CommentForm.EffectiveJwt | src/components/CommentForm.js:271 | the token is the one in memory when that is truthy, else the stored one when it is non-empty, else none |
| CommentForm.Render | src/components/CommentForm.js:88-135 | a token forces step 3 and the comment form; step 3 without a token shows only the notice; otherwise the step's form; only the step, the markup and the message line change |
| CommentForm.RenderIdempotent | src/components/CommentForm.js:91-98 | rendering twice is rendering once |
| CommentForm.Resolve | src/components/CommentForm.js:323-338 | an all-digit id is read as its number with no request; otherwise one lookup is made; an `ok` answer sets the id to the object's last `id` field, or to `undefined` when there is none or the answer is not an object; a failure, a body that does not parse, or `null` only shows the error |
| CommentForm.ResolveTakesId | src/components/CommentForm.js:330-334 | a lookup answered with an object of any fields takes the value of its last `id` field |
| Json.LastValueIs | src/components/CommentForm.js:334 | property access on a parsed object gives the value of the last field with that key |
| CommentForm.ResolveDecimal | src/components/CommentForm.js:325-327 | the decimal text of a number resolves to that number without a request |
| CommentForm.Attach | src/components/CommentForm.js:27-32 | the attributes are read with their defaults; a stored token opens the comment form directly, and otherwise the email form is shown |
| CommentForm.EmailSubmit | src/components/CommentForm.js:359-381 | a blank email shows an error with no request; an `ok` answer records the email and moves to step 2; a failure keeps the step; `loading` is cleared on every path |
| CommentForm.OtpSubmitAsWritten | src/components/CommentForm.js:204-258 | a truthy token is kept in memory and storage, with step 3 scheduled and the success message, and nothing else changes; an `ok` answer without a token forgets the token with "No se recibió token", any other failure with "Error validando OTP", both with step 2 scheduled; a rejected code only shows an error; `loading` is never cleared |
| CommentForm.ForgetToken | src/components/CommentForm.js:236-257 | the token is gone from memory and storage, step 2 is scheduled, the error is shown, and nothing else changes |
| CommentForm.OtpSubmit | src/components/CommentForm.js:204-258 | the code handler with `loading` cleared when it finishes, otherwise identical |
| CommentForm.CommentSubmit | src/components/CommentForm.js:260-321 | nothing is sent without a trimmed name, trimmed content and a token; the comment is posted last with the token and the trimmed fields; an accepted comment, and only that, saves the name, disables the button and schedules the reload; a failed post changes only the message, the resolved id and `loading` |
| CommentForm.Submit | src/components/CommentForm.js:340-357 | a submission while `loading` is set, with no form, or with the button disabled changes nothing and sends nothing; otherwise `loading` is set and the current step's handler runs |
| CommentForm.Fire | src/components/CommentForm.js:232-235 | the oldest scheduled step leaves the queue and becomes the step, shown by its own markup, unless a token forces step 3 and the comment form; the message line is empty, and the token, storage and `loading` are untouched |
| CommentForm.StepValid | src/components/CommentForm.js:88-135 | every event keeps the widget valid: a step of 1 to 3 shown by its own markup, the email form only without a token and the comment form only with one, only steps 2 and 3 scheduled, and a token in memory mirrored in storage |
| CommentForm.RunValid | src/components/CommentForm.js:340-357 | any run of events from a valid state stays valid |
| CommentForm.AttachValid | src/components/CommentForm.js:27-32 | a freshly attached widget is valid |
| CommentForm.BusyStaysBusy | src/components/CommentForm.js:342 | while `loading` is set, no sequence of events sends anything or clears it |
| CommentForm.OtpSubmissionStalls | src/components/CommentForm.js:204-258 | as written, after the first code submission nothing is ever sent again |
| CommentForm.SubmissionReleases | src/components/CommentForm.js:359-381 | with the corrected code handler, every submission the widget acts on leaves it ready for the next |
| CommentForm.EmailAdvances | src/components/CommentForm.js:372-375 | a successful code request records the email and shows the code form, ready for input |
| CommentForm.SessionPosts | src/components/CommentForm.js:204-321 | with the corrected code handler, a full session sends the code request, the code and the comment, and ends with the name saved, the button disabled and the reload scheduled |
| CommentForm.SessionStalls | src/components/CommentForm.js:204-258 | as written, a full session sends only the code request and the code, and ends still busy |
| CommentForm.SessionOutcome | src/components/CommentForm.js:204-321 | a full session (email, code answered with a token, timer, comment) posts the comment with the token and post number under the corrected handler, and stalls after the code as written |

## Left out

- `src/utils/direct-api.js` is not part of this model. Its three `fetch`
  wrappers only turn any failure into `[]`.
- `astro.config.mjs` is static build configuration and is not part of this
  model.
- The convenience getters at `src/utils/api.js:163-209` are fixed endpoint
  strings passed to `fetch`, and are not modelled.
- The overridden `handleSubmit` and `handleEmailSubmit` at
  `src/components/CommentForm.js:143-202` are dead code: the later
  definitions in the class replace them.
- Real I/O is left out: `fetch`, response bodies, JSON parsing, `console`
  logging, and the window-wide error listener
  (`src/components/CommentForm.js:3-10`). Outcomes are inputs.
- The DOM is left out: the shadow root's HTML, the debug text, and the
  escaping of the saved name. The markup is reduced to `CommentForm.View`.
- `showMessage` when the message line does not exist (the notice view) is not
  modelled, because no modelled path reaches it.
- The widget's `otp` and `otpValidated` fields are not modelled, because
  nothing reads them.
- `setTimeout` delays are a queue of pending steps, fired by an event. The
  page reload is a flag.
- Handlers run atomically with their outcomes supplied up front. Interleaving
  of two handlers across `await`s is not modelled.
- Percent-encoding and decoding in `URL` and `URLSearchParams` are not
  modelled, and neither is a `URL` constructor that throws in
  `fetchTenantData` (it sits outside the `try`, so it would reach the caller
  instead of giving `null`). Keys and values are taken as plain text.
- Proxy request fields of the wrong type are not modelled: a non-string
  `endpoint`, `method` or `subdomain`, or `queryParams` that is not an
  object. A request body that does not parse, or is `null`, is a failed
  request (a 500); any other non-object (a string, number, boolean or array)
  has no `endpoint` and gets the 400.
- A response's body text is an input. For an answer that has no body (to a
  `HEAD` request, or under a null body status) it should be `""`, and the
  model does not enforce that.
- ApiClient.DirectRequestFor: header names are compared as written. `fetch`
  compares them without regard to case, so a caller header such as `accept`
  is combined with the default `Accept` (`application/json, text/html`)
  rather than kept beside it; the model does not say so.
- Tenant.FetchTenantData: header names are compared as written, as for
  `ApiClient.DirectRequestFor`: a caller header differing from `Accept` or
  `Host` only in case is combined with the default by `fetch`, which the
  model does not say.
- CommentForm.Resolve: JSON `undefined` and `null` are one value. A lookup
  answer without an `id`, or that is not an object, leaves the id
  `undefined`, and `JSON.stringify` then drops `postId` from the posted
  comment, where the model posts `"postId": null`.
- JSON numbers are integers. `Number` of a very long digit string loses
  precision in JavaScript, and this model does not.
- Tenant.FetchTenantData: the request's other `options` (method, body) are
  not passed through in the model. Only the URL, the `subdomain` parameter
  and the headers are.
- ApiClient.ProxyRebuildsDirectUrl: it assumes that the object's entries
  reach the proxy in insertion order. JavaScript moves integer-like keys to
  the front, and that is not modelled.

## Findings

| source | as written | input that shows it | evidently intended | confidence | as-written member | corrected member |
|---|---|---|---|---|---|---|
| src/pages/api/proxy.js:77-86 | when `response.json()` rejects, the fallback calls `response.text()` on the same response, whose body `json()` has already consumed, so it rejects as well and the request ends in the 500 handler | upstream answers 200 with `content-type: application/json` and the body `<html>busy</html>` | relay the body as `text/plain` with the upstream status | medium, not executed; it relies on the fetch standard's rule that a body is read once | Proxy.RespondAsWritten (exhibited by Proxy.UnparsableJsonNeverFallsBack) | Proxy.Respond (used by Proxy.Post with `ReadsText`) |
| src/components/CommentForm.js:204-258 | `handleOtpSubmit` never clears `loading`, and the effective `handleSubmit` does not either, so after the first code submission every later submission returns at once | submit the email, then the code 123456 answered with a token; after the switch to step 3, submit a name and a comment; no comment is posted until the page is reloaded | clear `loading` when the code handler finishes, as the email and comment handlers do | high, not executed | CommentForm.OtpSubmitAsWritten (exhibited by CommentForm.OtpSubmissionStalls and CommentForm.SessionOutcome) | CommentForm.OtpSubmit (proved by CommentForm.SubmissionReleases and CommentForm.SessionOutcome) |

=== FILE: api_client.dfy ===
/** The API client (src/utils/api.js, `ApiClient`): a request goes to the
    upstream API directly and, when that fails, through the local proxy
    endpoint. */
module ApiClient {
  import opened Wrappers
  import opened Strings
  import opened Json
  import opened Http
  import opened Query
  import Proxy
  import Tenant

  /** Where the client runs: on the server, or in a browser at a host. */
  datatype Env = Server | Browser(locationHost: string)

  /** What `getHostInfo` returns. */
  datatype HostInfo = HostInfo(host: string, subdomain: string)

  /** A client: its base URL and where it runs. */
  datatype Client = Client(baseUrl: string, env: Env)

  /** `new ApiClient(baseUrl)`: the argument, else `PUBLIC_API_URL`, else the
      default base. */
  function NewClient(baseUrl: string, configuredBase: Option<string>, env: Env): (c: Client)
    ensures baseUrl != "" ==> c.baseUrl == baseUrl
    ensures baseUrl == "" ==> c.baseUrl == ApiBase(configuredBase)
    ensures c.env == env
  {
    Client(if baseUrl != "" then baseUrl else ApiBase(configuredBase), env)
  }

  /** `getHostInfo()`. On the server it is always `localhost` / `demo`. In a
      browser the host is reported as it is; a dotted host starting with
      neither "www." nor "localhost" gives its first label as subdomain;
      otherwise a host mentioning "localhost" gives "demo"; otherwise the
      subdomain is "". */
  function GetHostInfo(env: Env): (h: HostInfo)
    ensures env.Server? ==> h == HostInfo("localhost", "demo")
    ensures env.Browser? ==> h.host == env.locationHost
    ensures env.Browser? && '.' in h.host && !("www." <= h.host) && !("localhost" <= h.host) ==>
      h.subdomain <= h.host && '.' !in h.subdomain && h.host[|h.subdomain|] == '.'
    ensures env.Browser? && !('.' in h.host && !("www." <= h.host) && !("localhost" <= h.host)) ==>
      h.subdomain == (if Includes(h.host, "localhost") then "demo" else "")
  {
    match env
    case Server => HostInfo("localhost", "demo")
    case Browser(host) =>
      IncludesChar(host, '.');
      var sub :=
        if Includes(host, ".") && !("www." <= host) && !("localhost" <= host) then FirstLabel(host, '.')
        else if Includes(host, "localhost") then "demo"
        else "";
      HostInfo(host, sub)
  }

  /** The `options` argument of `fetch`: `method`, extra `headers`, and
      `body` (`None` when absent). */
  datatype Options = Options(verb: Option<string>, headers: map<string, string>, body: Option<Value>)

  /** `options.method || 'GET'`. */
  function VerbOf(o: Options): string {
    if o.verb.Some? && o.verb.value != "" then o.verb.value else "GET"
  }

  /** The body of the direct request: only for POST, PUT or PATCH with a
      truthy body; a string is sent as it is, anything else serialised. */
  function DirectBody(o: Options): (w: WireBody)
    ensures w != NoBody <==> HasBodyMethod(VerbOf(o)) && Present(o.body)
    ensures w.Raw? ==> o.body == Some(Str(w.text))
    ensures w.Serialized? ==> o.body == Some(w.value) && !w.value.Str?
  {
    match o.body
    case Some(v) =>
      if Truthy(v) && HasBodyMethod(VerbOf(o)) then
        if v.Str? then Raw(v.s) else Serialized(v)
      else NoBody
    case None => NoBody
  }

  /** The default headers, which the caller's headers override. */
  function BaseHeaders(info: HostInfo): map<string, string> {
    map[
      "Content-Type" := "application/json",
      "Accept" := "application/json",
      "Host" := info.host,
      "X-Taita-Subdomain" := info.subdomain
    ]
  }

  /** A request made directly to the upstream API. */
  datatype DirectRequest = DirectRequest(url: string, verb: string, headers: map<string, string>, body: WireBody)

  /** The JSON body posted to the proxy endpoint. */
  datatype ProxyPayload = ProxyPayload(endpoint: string, verb: string, body: Value, queryParams: map<string, string>, subdomain: string)

  /** A request the client makes: direct, or a POST to `/api/proxy` with the
      tenant headers and a payload. */
  datatype Call = Direct(request: DirectRequest) | ViaProxy(headers: map<string, string>, payload: ProxyPayload)

  /** The direct request for an endpoint. */
  function DirectRequestFor(c: Client, endpoint: string, o: Options): (r: DirectRequest)
    ensures r.url == c.baseUrl + WithLeadingSlash(endpoint)
    ensures r.verb == VerbOf(o)
    // The caller's headers win; every default header they do not name is sent as it is.
    ensures forall k :: k in o.headers ==> k in r.headers && r.headers[k] == o.headers[k]
    ensures var defaults := BaseHeaders(GetHostInfo(c.env));
      forall k :: k in defaults && k !in o.headers ==> k in r.headers && r.headers[k] == defaults[k]
    ensures r.headers.Keys == BaseHeaders(GetHostInfo(c.env)).Keys + o.headers.Keys
    ensures r.body == DirectBody(o)
  {
    DirectRequest(c.baseUrl + WithLeadingSlash(endpoint), VerbOf(o), BaseHeaders(GetHostInfo(c.env)) + o.headers, DirectBody(o))
  }

  /** The path split at its first `?` into the endpoint sent to the proxy and
      the query parameters: the endpoint is the part before the `?` (all of
      the path when it has none), and the parameters are those of the text
      between the first and any second `?` (none when there is no `?`). */
  function SplitEndpoint(path: string): (r: (string, map<string, string>))
    ensures r.0 <= path && '?' !in r.0
    ensures '?' in path ==> path[|r.0|] == '?'
    ensures '?' !in path ==> r == (path, map[])
    ensures '?' in path ==> |Split(path, '?')| >= 2 && r.1 == ParseQuery(Split(path, '?')[1])
  {
    var parts := Split(path, '?');
    var query :=
      if '?' in path then
        assert |parts| >= 2;
        ParseQuery(parts[1])
      else map[];
    (parts[0], query)
  }

  /** The payload `fetchViaProxy` posts for an endpoint. */
  function PayloadFor(c: Client, endpoint: string, o: Options): (p: ProxyPayload)
    ensures "/" <= p.endpoint && '?' !in p.endpoint
    ensures (p.endpoint, p.queryParams) == SplitEndpoint(WithLeadingSlash(endpoint))
    ensures p.verb == VerbOf(o)
    ensures p.body == (if Present(o.body) then o.body.value else Null)
    ensures p.subdomain == GetHostInfo(c.env).subdomain
  {
    var (endpointPath, query) := SplitEndpoint(WithLeadingSlash(endpoint));
    ProxyPayload(endpointPath, VerbOf(o), if Present(o.body) then o.body.value else Null, query, GetHostInfo(c.env).subdomain)
  }

  /** The call `fetchViaProxy` makes. */
  function ProxyCallFor(c: Client, endpoint: string, o: Options): Call
  {
    var info := GetHostInfo(c.env);
    ViaProxy(BaseHeaders(info), PayloadFor(c, endpoint, o))
  }

  /** What the direct attempt returns: a body for an `ok` response whose
      content can be read, and otherwise the failure that sends the client to
      the proxy (a rejected fetch, a non-`ok` status, or a JSON body that does
      not parse). */
  function DirectResult(o: Outcome): (r: Result<Body, string>)
    ensures r.Success? <==> o.Got? && Ok(o.response) && (IsJson(o.response.contentType) ==> o.response.json.Success?)
    ensures r.Success? && IsJson(o.response.contentType) ==> r.value == JsonBody(o.response.json.value)
    ensures r.Success? && !IsJson(o.response.contentType) ==> r.value == TextBody(o.response.text)
  {
    match o
    case Threw(message) => Failure(message)
    case Got(response) =>
      if !Ok(response) then Failure(response.text)
      else if IsJson(response.contentType) then
        match response.json
        case Success(v) => Success(JsonBody(v))
        case Failure(e) => Failure(e)
      else Success(TextBody(response.text))
  }

  /** What one `fetchViaProxy` call returns or throws: a non-`ok` proxy answer
      throws "Error del proxy: " and its text; a JSON answer that does not
      parse throws the parse error; a rejected fetch throws its error. */
  function ProxyResult(o: Outcome): (r: Result<Body, string>)
    ensures o.Got? && !Ok(o.response) ==> r == Failure("Error del proxy: " + o.response.text)
    ensures o.Threw? ==> r == Failure(o.message)
    ensures o.Got? && Ok(o.response) ==> r == DirectResult(o)
  {
    match o
    case Threw(message) => Failure(message)
    case Got(response) =>
      if !Ok(response) then Failure("Error del proxy: " + response.text)
      else DirectResult(o)
  }

  /** The calls made by one `fetch` and what it returns (`Success`) or throws
      (`Failure`). */
  datatype Run = Run(calls: seq<Call>, result: Result<Body, string>)

  /** `client.fetch(endpoint, options)`, given the outcomes of the direct fetch
      and of the first and second proxy fetches (each consumed only if that
      call is made). The proxy call for a non-`ok` status sits inside the
      `try`, so when it throws the `catch` calls the proxy once more. */
  function Fetch(c: Client, endpoint: string, o: Options, direct: Outcome, firstProxy: Outcome, secondProxy: Outcome): (r: Run)
    ensures 1 <= |r.calls| <= 3
    ensures r.calls[0] == Direct(DirectRequestFor(c, endpoint, o))
    // Every later call goes through the proxy with the same payload.
    ensures forall k :: 1 <= k < |r.calls| ==> r.calls[k] == ProxyCallFor(c, endpoint, o)
    // A usable direct answer is returned with no proxy call.
    ensures DirectResult(direct).Success? ==> r == Run(r.calls[..1], DirectResult(direct))
    // A second proxy call happens only after a non-ok direct answer and a failed first proxy call.
    ensures |r.calls| == 3 <==> direct.Got? && !Ok(direct.response) && ProxyResult(firstProxy).Failure?
    ensures DirectResult(direct).Failure? ==> |r.calls| >= 2
    ensures DirectResult(direct).Failure? ==> r.result == (if |r.calls| == 2 then ProxyResult(firstProxy) else ProxyResult(secondProxy))
  {
    var first := Direct(DirectRequestFor(c, endpoint, o));
    var viaProxy := ProxyCallFor(c, endpoint, o);
    match DirectResult(direct)
    case Success(body) => Run([first], Success(body))
    case Failure(_) =>
      if direct.Got? && !Ok(direct.response) then
        match ProxyResult(firstProxy)
        case Success(body) => Run([first, viaProxy], Success(body))
        case Failure(_) => Run([first, viaProxy, viaProxy], ProxyResult(secondProxy))
      else
        Run([first, viaProxy], ProxyResult(firstProxy))
  }

  /** The index of the first success among the results, or of the last one:
      how far a list of strategies tried in order gets. */
  function FirstSuccess(results: seq<Result<Body, string>>): (k: nat)
    requires |results| > 0
    ensures k < |results|
    ensures forall i :: 0 <= i < k ==> results[i].Failure?
    ensures results[k].Success? || k == |results| - 1
  {
    if results[0].Success? || |results| == 1 then 0
    else 1 + FirstSuccess(results[1..])
  }

  /** The strategies `fetch` tries, in order: direct, then the proxy, then,
      after a non-ok direct answer only, the proxy again. */
  function Strategies(direct: Outcome, firstProxy: Outcome, secondProxy: Outcome): seq<Result<Body, string>>
  {
    [DirectResult(direct), ProxyResult(firstProxy)]
    + (if direct.Got? && !Ok(direct.response) then [ProxyResult(secondProxy)] else [])
  }

  /** `fetch` is the strategy list tried in order: it makes one call per
      strategy up to the first that succeeds (or the last), and returns or
      throws what that one gives. */
  lemma FetchTriesStrategiesInOrder(c: Client, endpoint: string, o: Options, direct: Outcome, firstProxy: Outcome, secondProxy: Outcome)
    ensures var r := Fetch(c, endpoint, o, direct, firstProxy, secondProxy);
      var plan := Strategies(direct, firstProxy, secondProxy);
      |r.calls| == FirstSuccess(plan) + 1 && r.result == plan[FirstSuccess(plan)]
  {
    var plan := Strategies(direct, firstProxy, secondProxy);
    if plan[0].Failure? {
      assert plan[1..][0] == plan[1];
      if |plan| == 3 && plan[1].Failure? {
        assert plan[1..][1..][0] == plan[2];
      }
    }
  }

  /** A direct answer with status 503 followed by a working proxy costs
      exactly one proxy request, carrying the same logical request. */
  lemma UnavailableThenProxy(c: Client, endpoint: string, o: Options, direct: Response, proxy: Outcome, unused: Outcome)
    requires direct.status == 503
    requires ProxyResult(proxy).Success?
    ensures var r := Fetch(c, endpoint, o, Got(direct), proxy, unused);
      && r.calls == [Direct(DirectRequestFor(c, endpoint, o)), ProxyCallFor(c, endpoint, o)]
      && r.result == ProxyResult(proxy)
  {
  }

  /** An `ok` direct answer labelled JSON whose body does not parse also
      falls through to the proxy. */
  lemma UnparsableDirectJsonUsesProxy(c: Client, endpoint: string, o: Options, direct: Response, proxy: Outcome, unused: Outcome)
    requires Ok(direct) && IsJson(direct.contentType) && direct.json.Failure?
    ensures var r := Fetch(c, endpoint, o, Got(direct), proxy, unused);
      |r.calls| == 2 && r.calls[1].ViaProxy? && r.result == ProxyResult(proxy)
  {
  }

  /** A path with a well-formed query splits into its endpoint and the query's
      parameters: the object holds exactly the query's keys, each with its
      last value. */
  lemma SplitEndpointOfQuery(endpoint: string, pairs: seq<(string, string)>)
    requires '?' !in endpoint
    requires WellFormed(pairs)
    requires forall i :: 0 <= i < |pairs| ==> '?' !in pairs[i].0 && '?' !in pairs[i].1
    ensures SplitEndpoint(endpoint + "?" + Serialize(pairs)) == (endpoint, ToMap(pairs))
  {
    SerializeFree(pairs, '?');
    SplitAtQuestionMark(endpoint, Serialize(pairs));
    ParseSerialize(pairs);
  }

  /** A path made of a `?`-free endpoint, a `?` and a `?`-free query splits
      back into the two. */
  lemma SplitAtQuestionMark(endpoint: string, q: string)
    requires '?' !in endpoint && '?' !in q
    ensures SplitEndpoint(endpoint + "?" + q) == (endpoint, ParseQuery(q))
  {
    var path := endpoint + "?" + q;
    assert Join([endpoint, q], '?') == path;
    SplitJoin([endpoint, q], '?');
    assert Split(path, '?') == [endpoint, q];
    assert path[|endpoint|] == '?';
  }

  /** The proxy endpoint, handed the subdomain a browser client derived, keeps
      it: for a request from the same host it derives nothing different, so
      the direct and the proxied request name the same tenant. */
  lemma ProxyKeepsClientSubdomain(host: string)
    ensures var sub := GetHostInfo(Browser(host)).subdomain;
      Proxy.DeriveSubdomain(Some(sub), host) == sub
  {
    IncludesChar(host, '.');
    if "localhost" <= host {
      assert OccursAt(host, "localhost", 0);
    }
  }

  /** On a two-label production host (a custom domain) the client names the
      first label as tenant while the server-side tenant resolution names
      none. */
  lemma TwoLabelHostsDisagree(host: string, url: Tenant.RequestUrl)
    requires Count(host, '.') == 1 && !Tenant.IsLocalHost(host)
    requires !("www." <= host) && !("localhost" <= host)
    ensures GetHostInfo(Browser(host)).subdomain == FirstLabel(host, '.')
    ensures Tenant.GetTenantInfo(Some(host), url).subdomain == ""
  {
    CountZero(host, '.');
    IncludesChar(host, '.');
    Tenant.TwoLabelTenant(Some(host), url);
  }

  /** The entries of a JSON object written from pairs with distinct keys, in
      order. */
  function Entries(pairs: seq<(string, string)>): (entries: seq<(string, Option<string>)>)
    ensures |entries| == |pairs|
    ensures forall i :: 0 <= i < |pairs| ==> entries[i] == (pairs[i].0, Some(pairs[i].1))
  {
    if |pairs| == 0 then [] else [(pairs[0].0, Some(pairs[0].1))] + Entries(pairs[1..])
  }

  /** The proxy keeps every entry of an object without nulls. */
  lemma {:induction false} AssignedEntries(pairs: seq<(string, string)>)
    ensures Proxy.Assigned(Entries(pairs)) == pairs
    decreases |pairs|
  {
    if |pairs| > 0 {
      assert Entries(pairs)[1..] == Entries(pairs[1..]);
      AssignedEntries(pairs[1..]);
      assert pairs == [pairs[0]] + pairs[1..];
    }
  }

  /** The proxy appends the entries of a well-formed query as that query. */
  lemma QuerySuffixOfEntries(pairs: seq<(string, string)>)
    requires |pairs| > 0
    ensures Proxy.QuerySuffix(Some(Entries(pairs))) == "?" + Serialize(pairs)
  {
    AssignedEntries(pairs);
  }

  /** A rooted endpoint followed by a query suffix. */
  lemma UpstreamUrlWithQuery(base: string, endpoint: string, e: seq<(string, Option<string>)>, q: string)
    requires "/" <= endpoint
    requires Proxy.QuerySuffix(Some(e)) == "?" + q
    ensures Proxy.UpstreamUrl(base, endpoint, Some(e)) == base + (endpoint + "?" + q)
  {
  }

  /** An endpoint carrying a query, sent through the proxy, reaches the URL
      the direct request used, provided the proxy's API base is the
      client's: the client splits the query off into an object and the proxy
      appends it again. The keys and values must be ones that percent-encoding
      leaves as they are (`URLSearchParams` decodes the client's query and
      re-encodes the proxy's, so `+`, `%`, spaces and the like change on the
      way), and the keys distinct (an object keeps one value per key, in
      insertion order). */
  lemma ProxyRebuildsDirectUrl(c: Client, endpoint: string, pairs: seq<(string, string)>, o: Options)
    requires "/" <= endpoint && '?' !in endpoint
    requires |pairs| > 0 && Verbatim(pairs)
    requires forall i, j :: 0 <= i < j < |pairs| ==> pairs[i].0 != pairs[j].0
    ensures var path := endpoint + "?" + Serialize(pairs);
      var p := PayloadFor(c, path, o);
      && p.endpoint == endpoint
      && p.queryParams == ToMap(pairs)
      && Proxy.UpstreamUrl(c.baseUrl, p.endpoint, Some(Entries(pairs))) == DirectRequestFor(c, path, o).url
  {
    VerbatimDelimiters(pairs);
    var path := endpoint + "?" + Serialize(pairs);
    assert path[..1] == endpoint[..1];
    assert WithLeadingSlash(path) == path;
    SplitEndpointOfQuery(endpoint, pairs);
    QuerySuffixOfEntries(pairs);
    UpstreamUrlWithQuery(c.baseUrl, endpoint, Entries(pairs), Serialize(pairs));
  }

  /** The proxy attaches a body exactly when the direct request does, but a
      string body, sent as it is directly, reaches the API through the proxy
      serialised a second time (as a JSON string literal). */
  lemma BodyThroughProxy(c: Client, endpoint: string, o: Options)
    ensures var p := PayloadFor(c, endpoint, o);
      var relayed := Proxy.UpstreamBody(p.verb, Some(p.body));
      && (relayed != NoBody <==> DirectBody(o) != NoBody)
      && (DirectBody(o).Raw? ==> relayed == Serialized(Str(DirectBody(o).text)))
      && (DirectBody(o).Serialized? ==> relayed == DirectBody(o))
  {
  }
}

=== FILE: comment_form.dfy ===
/** The comment widget (src/components/CommentForm.js, `<comment-form>`): a
    three-step machine (email, one-time code, comment) with an in-flight
    flag, a token kept in memory and in `localStorage`, and the post's
    numeric id resolved from its attribute.

    A handler runs to completion with the outcomes of the requests it makes
    supplied in its event; the delayed step changes it schedules are a queue
    of pending steps that a `TimerFires` event applies one at a time. */
module CommentForm {
  import opened Wrappers
  import opened Strings
  import opened Json
  import opened Http

  /** What the shadow root shows: one of the three forms (the comment form
      with the name it is prefilled with), the "validate your email" notice
      that replaces the form, or nothing. */
  datatype View = EmailForm | OtpForm | CommentBox(savedName: string) | MustValidate | Blank

  /** The text of the message line and whether it is styled as an error. */
  datatype Message = Message(text: string, isError: bool)

  /** The requests the widget sends. */
  datatype Request =
    | RequestOtp(url: string, email: string)
    | VerifyOtp(url: string, email: string, code: string)
    | LookupPost(url: string)
    | PostComment(url: string, authorization: string, postId: Value, authorName: string, content: string)

  /** The element's state. `jwt` is `Null` while unset; `store` is
      `localStorage`; `pending` holds the steps scheduled with `setTimeout`,
      in firing order. */
  datatype Widget = Widget(
    step: int,
    loading: bool,
    jwt: Value,
    store: map<string, string>,
    userEmail: string,
    apiBase: string,
    postId: string,
    numericPostId: Value,
    view: View,
    message: Option<Message>,
    submitDisabled: bool,
    pending: seq<int>,
    reloadScheduled: bool)

  /** The state after a handler, and the requests it sent, in order. */
  datatype Turn = Turn(widget: Widget, sent: seq<Request>)

  /** What the inputs hold when the form is submitted. */
  datatype Fields = Fields(email: string, otp: string, name: string, content: string)

  /** The outcomes of the requests a submission may make. */
  datatype Net = Net(requestOtp: Outcome, verifyOtp: Outcome, lookup: Outcome, postComment: Outcome)

  datatype Event = Submitted(fields: Fields, net: Net) | TimerFires

  /** Which `handleOtpSubmit` runs: the source's, which leaves `loading` set,
      or one that clears it like the other handlers do. */
  datatype OtpHandling = AsWritten | ClearsLoading

  const TokenKey := "comment_jwt"
  const NameKey := "comment_author_name"
  const WidgetApiBase := "http://localhost:3000/api"

  const EmailMissing := "Completa el campo de email."
  const OtpRequestFailed := "No se pudo solicitar el OTP."
  const OtpRequestError := "Error al solicitar OTP"
  const OtpMissing := "Completa el campo de OTP."
  const OtpRejected := "OTP incorrecto o expirado."
  const OtpAccepted := "OTP validado. Ahora puedes comentar."
  const TokenMissing := "No se recibió token del backend. Intenta de nuevo."
  const OtpError := "Error validando OTP."
  const FieldsMissing := "Completa todos los campos."
  const NotValidated := "Debes validar tu email antes de comentar."
  const CommentRejected := "No se pudo enviar el comentario. "
  const CommentSent := "¡Comentario enviado! Será revisado antes de publicarse."
  const CommentError := "Error al enviar comentario"
  const InitFailed := "No se pudo inicializar el formulario."

  /** `localStorage.getItem(key)`, `None` for `null`. */
  function Stored(store: map<string, string>, key: string): Option<string> {
    if key in store then Some(store[key]) else None
  }

  /** `this.jwt || localStorage.getItem('comment_jwt')`, `None` when that is
      falsy; a token held in memory is used as its text. */
  function EffectiveJwt(jwt: Value, store: map<string, string>): (t: Option<string>)
    ensures Truthy(jwt) ==> t == Some(ToText(jwt))
    ensures !Truthy(jwt) ==> (t.Some? <==> TokenKey in store && store[TokenKey] != "")
    ensures !Truthy(jwt) && t.Some? ==> t.value == store[TokenKey]
  {
    if Truthy(jwt) then Some(ToText(jwt))
    else
      match Stored(store, TokenKey)
      case Some(s) => if s != "" then Some(s) else None
      case None => None
  }

  /** The forms that have a submit handler attached. */
  predicate HasForm(v: View) {
    v.EmailForm? || v.OtpForm? || v.CommentBox?
  }

  /** `render()` with `renderStep()`: a token forces step 3; step 3 without a
      token shows only the notice; otherwise the step's form. The new markup
      has an empty message line and an enabled button. */
  function Render(w: Widget): (r: Widget)
    ensures EffectiveJwt(w.jwt, w.store).Some? ==> r.step == 3 && r.view == CommentBox(Stored(w.store, NameKey).GetOr(""))
    ensures EffectiveJwt(w.jwt, w.store).None? ==> r.step == w.step
    ensures EffectiveJwt(w.jwt, w.store).None? && w.step == 3 ==> r.view == MustValidate
    ensures r.view == EmailForm <==> r.step == 1
    ensures r.view == OtpForm <==> r.step == 2
    ensures r.view.Blank? <==> !(1 <= r.step <= 3)
    ensures r.message.None? && !r.submitDisabled
    // Only the step, the markup, the message line and the button change.
    ensures r == w.(step := r.step, view := r.view, message := None, submitDisabled := false)
  {
    var jwt := EffectiveJwt(w.jwt, w.store);
    var step := if jwt.Some? then 3 else w.step;
    var view :=
      if step == 3 && jwt.None? then MustValidate
      else if step == 1 then EmailForm
      else if step == 2 then OtpForm
      else if step == 3 then CommentBox(Stored(w.store, NameKey).GetOr(""))
      else Blank;
    w.(step := step, view := view, message := None, submitDisabled := false)
  }

  /** `showMessage(text, isError)`. */
  function Show(w: Widget, text: string, isError: bool): Widget {
    w.(message := Some(Message(text, isError)))
  }

  /** `err.message || fallback`. */
  function ErrorText(message: string, fallback: string): (t: string)
    ensures t != "" || fallback == ""
    ensures message != "" ==> t == message
  {
    if message != "" then message else fallback
  }

  /** `resolveNumericPostId()`: an all-digit id is read as its number with no
      request; otherwise the post is looked up by id and its `id` field
      taken, and any failure leaves the value as it was and shows
      `InitFailed`. */
  function Resolve(w: Widget, lookup: Outcome): (t: Turn)
    ensures AllDigits(w.postId) ==> t == Turn(w.(numericPostId := Num(DigitsValue(w.postId))), [])
    ensures !AllDigits(w.postId) ==> t.sent == [LookupPost(w.apiBase + "/posts/uuid/" + w.postId)]
    ensures !AllDigits(w.postId) && t.widget.numericPostId != w.numericPostId ==>
      lookup.Got? && Ok(lookup.response) && lookup.response.json.Success?
    // An ok answer takes `data.id`: the object's last `id` field, `undefined`
    // (here `Null`) when there is none or the answer is not an object.
    ensures (!AllDigits(w.postId) && lookup.Got? && Ok(lookup.response) && lookup.response.json.Success?
             && lookup.response.json.value.Obj?) ==>
      t.widget == w.(numericPostId := LastValue(lookup.response.json.value.fields, "id").GetOr(Null))
    ensures (!AllDigits(w.postId) && lookup.Got? && Ok(lookup.response) && lookup.response.json.Success?
             && !lookup.response.json.value.Obj? && lookup.response.json.value != Null) ==>
      t.widget == w.(numericPostId := Null)
    // A rejected fetch, a non-ok answer, a body that does not parse and a
    // `null` body only show the failure.
    ensures (!AllDigits(w.postId) && !(lookup.Got? && Ok(lookup.response) && lookup.response.json.Success?
                                     && lookup.response.json.value != Null)) ==>
      t.widget == Show(w, InitFailed, true)
    ensures t.widget == w.(numericPostId := t.widget.numericPostId, message := t.widget.message)
  {
    if AllDigits(w.postId) then
      Turn(w.(numericPostId := Num(DigitsValue(w.postId))), [])
    else
      var sent := [LookupPost(w.apiBase + "/posts/uuid/" + w.postId)];
      var failed := Turn(Show(w, InitFailed, true), sent);
      match lookup
      case Threw(_) => failed
      case Got(response) =>
        if !Ok(response) then failed
        else match response.json
          case Failure(_) => failed
          case Success(data) =>
            match Field(data, "id")
            case Failure(_) => failed
            case Success(id) => Turn(w.(numericPostId := id.GetOr(Null)), sent)
  }

  /** A lookup answered with an object whose last `id` field, among any
      others, holds `fields[i].1` sets the id to that value. */
  lemma ResolveTakesId(w: Widget, status: int, contentType: Option<string>, text: string,
                       fields: seq<(string, Value)>, i: int)
    requires !AllDigits(w.postId)
    requires 200 <= status <= 299
    requires 0 <= i < |fields| && fields[i].0 == "id"
    requires forall j :: i < j < |fields| ==> fields[j].0 != "id"
    ensures var t := Resolve(w, Got(Response(status, contentType, text, Success(Obj(fields)))));
      t.widget == w.(numericPostId := fields[i].1) && |t.sent| == 1
  {
    LastValueIs(fields, "id", i);
  }

  /** The decimal text of a number resolves to that number without a request. */
  lemma ResolveDecimal(w: Widget, n: nat, lookup: Outcome)
    requires w.postId == Decimal(n)
    ensures Resolve(w, lookup) == Turn(w.(numericPostId := Num(n)), [])
  {
    DigitsValueOfDecimal(n);
  }

  /** `connectedCallback()` on a fresh element: read the attributes (a
      missing `post-id` reads as "null"), render, and resolve the post id. */
  function Attach(postIdAttr: Option<string>, apiBaseAttr: Option<string>, store: map<string, string>, lookup: Outcome): (t: Turn)
    ensures t.widget.apiBase == (if apiBaseAttr.Some? && apiBaseAttr.value != "" then apiBaseAttr.value else WidgetApiBase)
    ensures t.widget.postId == postIdAttr.GetOr("null")
    ensures !t.widget.loading && t.widget.pending == [] && t.widget.jwt == Null && t.widget.store == store
    // A token left in storage by an earlier visit opens the comment form directly.
    ensures TokenKey in store && store[TokenKey] != "" ==> t.widget.step == 3 && t.widget.view.CommentBox?
    ensures !(TokenKey in store && store[TokenKey] != "") ==> t.widget.step == 1 && t.widget.view == EmailForm
  {
    var apiBase := if apiBaseAttr.Some? && apiBaseAttr.value != "" then apiBaseAttr.value else WidgetApiBase;
    var initial := Widget(1, false, Null, store, "", apiBase, postIdAttr.GetOr("null"), Null,
                        Blank, None, false, [], false);
    Resolve(Render(initial), lookup)
  }

  /** The effective `handleEmailSubmit()`. */
  function EmailSubmit(w: Widget, email: string, o: Outcome): (t: Turn)
    ensures !t.widget.loading
    ensures Trim(email) == "" ==> t == Turn(Show(w, EmailMissing, true).(loading := false), [])
    ensures Trim(email) != "" ==> t.sent == [RequestOtp(w.apiBase + "/comments/request-otp", Trim(email))]
    // Only an ok answer moves on, remembering the address.
    ensures Trim(email) != "" && o.Got? && Ok(o.response) ==>
      t.widget == Render(w.(userEmail := Trim(email), step := 2)).(loading := false)
    ensures Trim(email) != "" && o.Threw? ==>
      t.widget == Show(w, ErrorText(o.message, OtpRequestError), true).(loading := false)
    ensures Trim(email) != "" && o.Got? && !Ok(o.response) ==>
      t.widget == Show(w, OtpRequestFailed, true).(loading := false)
  {
    var address := Trim(email);
    if address == "" then Turn(Show(w, EmailMissing, true).(loading := false), [])
    else
      var sent := [RequestOtp(w.apiBase + "/comments/request-otp", address)];
      match o
      case Threw(message) => Turn(Show(w, ErrorText(message, OtpRequestError), true).(loading := false), sent)
      case Got(response) =>
        if !Ok(response) then Turn(Show(w, OtpRequestFailed, true).(loading := false), sent)
        else Turn(Render(w.(userEmail := address, step := 2)).(loading := false), sent)
  }

  /** The catch-all of `handleOtpSubmit()` and its no-token branch: show the
      message, forget the token in memory and in storage, and schedule a
      return to step 2. */
  function ForgetToken(w: Widget, text: string): (r: Widget)
    ensures r.jwt == Null && TokenKey !in r.store && EffectiveJwt(r.jwt, r.store).None?
    ensures r.pending == w.pending + [2]
    // Nothing else changes.
    ensures r == w.(jwt := Null, store := w.store - {TokenKey}, pending := w.pending + [2],
                    message := Some(Message(text, true)))
  {
    Show(w, text, true).(jwt := Null, store := w.store - {TokenKey}, pending := w.pending + [2])
  }

  /** `handleOtpSubmit()` as written: no path clears `loading`. */
  function OtpSubmitAsWritten(w: Widget, code: string, o: Outcome): (t: Turn)
    ensures t.widget.loading == w.loading
    ensures Trim(code) == "" ==> t == Turn(Show(w, OtpMissing, true), [])
    ensures Trim(code) != "" ==> t.sent == [VerifyOtp(w.apiBase + "/comments/verify-otp", w.userEmail, Trim(code))]
    // A rejected code changes nothing but the message.
    ensures Trim(code) != "" && o.Got? && !Ok(o.response) ==> t.widget == Show(w, OtpRejected, true)
    ensures t.widget.step == w.step && t.widget.view == w.view
    // A truthy token is kept in memory and storage and step 3 is scheduled;
    // every other outcome forgets any token and schedules step 2.
    ensures Trim(code) != "" && TokenIn(o).Some? ==>
      && t.widget.jwt == TokenIn(o).value
      && t.widget.store == w.store[TokenKey := ToText(TokenIn(o).value)]
      && t.widget.pending == w.pending + [3]
      && t.widget.message == Some(Message(OtpAccepted, false))
      && t.widget == w.(jwt := TokenIn(o).value, store := w.store[TokenKey := ToText(TokenIn(o).value)],
                        pending := w.pending + [3], message := Some(Message(OtpAccepted, false)))
    ensures Trim(code) != "" && TokenIn(o).None? && !(o.Got? && !Ok(o.response)) ==>
      t.widget.jwt == Null && t.widget.store == w.store - {TokenKey} && t.widget.pending == w.pending + [2]
    // An ok answer parsed to a value other than `null` lacks only the token;
    // anything else is the catch-all error.
    ensures (Trim(code) != "" && TokenIn(o).None? && o.Got? && Ok(o.response) && o.response.json.Success?
             && o.response.json.value != Null) ==>
      t.widget == ForgetToken(w, TokenMissing)
    ensures Trim(code) != "" && (o.Threw? || (Ok(o.response) && (o.response.json.Failure? || o.response.json.value == Null))) ==>
      t.widget == ForgetToken(w, OtpError)
  {
    var otp := Trim(code);
    if otp == "" then Turn(Show(w, OtpMissing, true), [])
    else
      var sent := [VerifyOtp(w.apiBase + "/comments/verify-otp", w.userEmail, otp)];
      match o
      case Threw(_) => Turn(ForgetToken(w, OtpError), sent)
      case Got(response) =>
        if !Ok(response) then Turn(Show(w, OtpRejected, true), sent)
        else match response.json
          case Failure(_) => Turn(ForgetToken(w, OtpError), sent)
          case Success(data) =>
            match Field(data, "token")
            case Failure(_) => Turn(ForgetToken(w, OtpError), sent)
            case Success(token) =>
              if Present(token) then
                var v := token.value;
                Turn(Show(w, OtpAccepted, false).(jwt := v, store := w.store[TokenKey := ToText(v)], pending := w.pending + [3]), sent)
              else Turn(ForgetToken(w, TokenMissing), sent)
  }

  /** The truthy `token` of an ok verification answer, if there is one. */
  function TokenIn(o: Outcome): (token: Option<Value>)
    ensures token.Some? ==> Truthy(token.value)
  {
    if o.Got? && Ok(o.response) && o.response.json.Success? then
      match Field(o.response.json.value, "token")
      case Success(Some(v)) => if Truthy(v) then Some(v) else None
      case _ => None
    else None
  }

  /** `handleOtpSubmit()` with `loading` cleared when it finishes, as every
      other handler does. */
  function OtpSubmit(w: Widget, code: string, o: Outcome): (t: Turn)
    ensures !t.widget.loading
    ensures t == (var a := OtpSubmitAsWritten(w, code, o); Turn(a.widget.(loading := false), a.sent))
  {
    var a := OtpSubmitAsWritten(w, code, o);
    Turn(a.widget.(loading := false), a.sent)
  }

  /** What the comment POST's outcome does to the widget: an accepted
      comment saves the author's name, disables the button and schedules the
      reload; any failure only shows its message. */
  function AfterPost(v: Widget, author: string, o: Outcome): (r: Widget)
    ensures o.Got? && Ok(o.response) && o.response.json.Success? ==>
      r == Show(v, CommentSent, false).(store := v.store[NameKey := author], submitDisabled := true, reloadScheduled := true)
    ensures !(o.Got? && Ok(o.response) && o.response.json.Success?) ==>
      r == v.(message := r.message) && r.message.Some? && r.message.value.isError
    ensures o.Got? && !Ok(o.response) ==> r.message == Some(Message(CommentRejected + o.response.text, true))
    ensures r.step == v.step && r.view == v.view && r.jwt == v.jwt && r.pending == v.pending && r.numericPostId == v.numericPostId
  {
    match o
    case Threw(message) => Show(v, ErrorText(message, CommentError), true)
    case Got(response) =>
      if !Ok(response) then Show(v, CommentRejected + response.text, true)
      else match response.json
        case Failure(message) => Show(v, ErrorText(message, CommentError), true)
        case Success(_) =>
          Show(v, CommentSent, false).(store := v.store[NameKey := author], submitDisabled := true, reloadScheduled := true)
  }

  /** `if (!this.numericPostId) await this.resolveNumericPostId()`. */
  function EnsurePostId(w: Widget, lookup: Outcome): (t: Turn)
    ensures forall i :: 0 <= i < |t.sent| ==> t.sent[i].LookupPost?
    ensures t.widget == w.(numericPostId := t.widget.numericPostId, message := t.widget.message)
  {
    if Truthy(w.numericPostId) then Turn(w, []) else Resolve(w, lookup)
  }

  /** `handleCommentSubmit()`. */
  function CommentSubmit(w: Widget, name: string, content: string, net: Net): (t: Turn)
    ensures !t.widget.loading
    // Nothing is sent without both fields and a token.
    ensures (Trim(name) == "" || Trim(content) == "") ==> t == Turn(Show(w, FieldsMissing, true).(loading := false), [])
    ensures Trim(name) != "" && Trim(content) != "" && EffectiveJwt(w.jwt, w.store).None? ==>
      t == Turn(Show(w, NotValidated, true).(loading := false), [])
    // Otherwise the comment is posted, last, with the token and the trimmed fields.
    ensures Trim(name) != "" && Trim(content) != "" && EffectiveJwt(w.jwt, w.store).Some? ==>
      && |t.sent| >= 1
      && t.sent[|t.sent| - 1] == PostComment(w.apiBase + "/comments", "Bearer " + EffectiveJwt(w.jwt, w.store).value,
                                             t.widget.numericPostId, Trim(name), Trim(content))
    // Only an accepted comment saves the name, disables the button and schedules the reload.
    ensures t.widget.reloadScheduled != w.reloadScheduled || t.widget.store != w.store ==>
      && net.postComment.Got? && Ok(net.postComment.response) && net.postComment.response.json.Success?
      && t.widget.store == w.store[NameKey := Trim(name)]
      && t.widget.submitDisabled && t.widget.reloadScheduled
      && t.widget.message == Some(Message(CommentSent, false))
    // An accepted comment does all three; a post that fails only shows an error.
    ensures (Trim(name) != "" && Trim(content) != "" && EffectiveJwt(w.jwt, w.store).Some?
             && net.postComment.Got? && Ok(net.postComment.response) && net.postComment.response.json.Success?) ==>
      && t.widget.store == w.store[NameKey := Trim(name)]
      && t.widget.submitDisabled && t.widget.reloadScheduled
      && t.widget.message == Some(Message(CommentSent, false))
    ensures (Trim(name) != "" && Trim(content) != "" && EffectiveJwt(w.jwt, w.store).Some?
             && !(net.postComment.Got? && Ok(net.postComment.response) && net.postComment.response.json.Success?)) ==>
      && t.widget.store == w.store && t.widget.reloadScheduled == w.reloadScheduled
      && t.widget.message.Some? && t.widget.message.value.isError
      && t.widget == w.(numericPostId := t.widget.numericPostId, message := t.widget.message, loading := false)
    ensures (Trim(name) != "" && Trim(content) != "" && EffectiveJwt(w.jwt, w.store).Some?
             && net.postComment.Got? && Ok(net.postComment.response) && net.postComment.response.json.Success?) ==>
      t.widget == w.(numericPostId := t.widget.numericPostId, message := Some(Message(CommentSent, false)),
                     loading := false, store := w.store[NameKey := Trim(name)], submitDisabled := true,
                     reloadScheduled := true)
    ensures t.widget.step == w.step && t.widget.view == w.view && t.widget.jwt == w.jwt && t.widget.pending == w.pending
  {
    var author := Trim(name);
    var text := Trim(content);
    if author == "" || text == "" then Turn(Show(w, FieldsMissing, true).(loading := false), [])
    else match EffectiveJwt(w.jwt, w.store)
      case None => Turn(Show(w, NotValidated, true).(loading := false), [])
      case Some(jwt) =>
        var resolved := EnsurePostId(w, net.lookup);
        var v := resolved.widget;
        var sent := resolved.sent + [PostComment(w.apiBase + "/comments", "Bearer " + jwt, v.numericPostId, author, text)];
        Turn(AfterPost(v, author, net.postComment).(loading := false), sent)
  }

  /** The effective `handleSubmit()`: ignored while a request is in flight
      (or with no form or a disabled button); otherwise it sets `loading` and
      hands over to the current step's handler. */
  function Submit(h: OtpHandling, w: Widget, f: Fields, net: Net): (t: Turn)
    ensures w.loading || !HasForm(w.view) || w.submitDisabled ==> t == Turn(w, [])
    ensures !w.loading && HasForm(w.view) && !w.submitDisabled ==>
      match w.step
      case 1 => t == EmailSubmit(w.(loading := true), f.email, net.requestOtp)
      case 2 => t == (if h == AsWritten then OtpSubmitAsWritten(w.(loading := true), f.otp, net.verifyOtp)
                      else OtpSubmit(w.(loading := true), f.otp, net.verifyOtp))
      case 3 => t == CommentSubmit(w.(loading := true), f.name, f.content, net)
      case _ => t == Turn(w.(loading := true), [])
  {
    if w.loading || !HasForm(w.view) || w.submitDisabled then Turn(w, [])
    else
      var busy := w.(loading := true);
      if busy.step == 1 then EmailSubmit(busy, f.email, net.requestOtp)
      else if busy.step == 2 then
        (if h == AsWritten then OtpSubmitAsWritten(busy, f.otp, net.verifyOtp) else OtpSubmit(busy, f.otp, net.verifyOtp))
      else if busy.step == 3 then CommentSubmit(busy, f.name, f.content, net)
      else Turn(busy, [])
  }

  /** The oldest scheduled step change fires: set the step and render. */
  function Fire(w: Widget): (r: Widget)
    ensures w.pending == [] ==> r == w
    // The fired step leaves the queue; a token still overrides it with step 3.
    ensures w.pending != [] ==> r.pending == w.pending[1..]
    ensures w.pending != [] && EffectiveJwt(w.jwt, w.store).None? ==> r.step == w.pending[0]
    // Without a token the step's own markup is shown.
    ensures w.pending != [] && EffectiveJwt(w.jwt, w.store).None? ==>
      r.view == (if r.step == 1 then EmailForm else if r.step == 2 then OtpForm
                 else if r.step == 3 then MustValidate else Blank)
    ensures w.pending != [] && EffectiveJwt(w.jwt, w.store).Some? ==> r.step == 3 && r.view.CommentBox?
    // The step's markup is shown fresh, and nothing else changes.
    ensures w.pending != [] ==> r.message.None? && !r.submitDisabled
    ensures w.pending != [] ==>
      r == w.(step := r.step, view := r.view, pending := w.pending[1..], message := None, submitDisabled := false)
  {
    if w.pending == [] then w else Render(w.(step := w.pending[0], pending := w.pending[1..]))
  }

  /** One event. */
  function Step(h: OtpHandling, w: Widget, e: Event): Turn {
    match e
    case Submitted(f, net) => Submit(h, w, f, net)
    case TimerFires => Turn(Fire(w), [])
  }

  /** A sequence of events, and every request sent along the way. */
  function Run(h: OtpHandling, w: Widget, events: seq<Event>): Turn
    decreases |events|
  {
    if |events| == 0 then Turn(w, [])
    else
      var first := Step(h, w, events[0]);
      var rest := Run(h, first.widget, events[1..]);
      Turn(rest.widget, first.sent + rest.sent)
  }

  /** The states the widget can reach: a step of the machine shown by its
      own markup, the email form only without a token and the comment form
      only with one, only steps
      2 and 3 scheduled, and a token in memory mirrored in storage. */
  predicate Valid(w: Widget) {
    && 1 <= w.step <= 3
    && (w.view == EmailForm <==> w.step == 1)
    && (w.view == OtpForm <==> w.step == 2)
    && (w.step == 3 ==> w.view.CommentBox? || w.view == MustValidate)
    && (w.step == 1 ==> EffectiveJwt(w.jwt, w.store).None?)
    && (w.view.CommentBox? ==> EffectiveJwt(w.jwt, w.store).Some?)
    && (w.view == MustValidate ==> EffectiveJwt(w.jwt, w.store).None?)
    && (forall k :: 0 <= k < |w.pending| ==> w.pending[k] == 2 || w.pending[k] == 3)
    && (Truthy(w.jwt) ==> TokenKey in w.store && w.store[TokenKey] == ToText(w.jwt))
  }

  /** A freshly attached widget is in a valid state. */
  lemma AttachValid(postIdAttr: Option<string>, apiBaseAttr: Option<string>, store: map<string, string>, lookup: Outcome)
    ensures Valid(Attach(postIdAttr, apiBaseAttr, store, lookup).widget)
  {
  }

  /** Rendering a valid-step state with a consistent token gives a valid state. */
  lemma RenderValid(w: Widget)
    requires 1 <= w.step <= 3
    requires forall k :: 0 <= k < |w.pending| ==> w.pending[k] == 2 || w.pending[k] == 3
    requires Truthy(w.jwt) ==> TokenKey in w.store && w.store[TokenKey] == ToText(w.jwt)
    ensures Valid(Render(w))
  {
  }

  /** Rendering twice is rendering once. */
  lemma RenderIdempotent(w: Widget)
    ensures Render(Render(w)) == Render(w)
  {
  }

  /** The email handler keeps the widget valid. */
  lemma EmailSubmitValid(w: Widget, email: string, o: Outcome)
    requires Valid(w) && w.step == 1
    ensures Valid(EmailSubmit(w, email, o).widget)
  {
    var t := EmailSubmit(w, email, o);
    var address := Trim(email);
    if address != "" && o.Got? && Ok(o.response) {
      var next := w.(userEmail := address, step := 2);
      RenderValid(next);
      var r := Render(next);
      assert t.widget == r.(loading := false);
    }
  }

  /** The code handler, as written, keeps the widget valid. */
  lemma OtpSubmitValid(w: Widget, code: string, o: Outcome)
    requires Valid(w) && w.step == 2
    ensures Valid(OtpSubmitAsWritten(w, code, o).widget)
  {
  }

  /** The comment handler keeps the widget valid. */
  lemma CommentSubmitValid(w: Widget, name: string, content: string, net: Net)
    requires Valid(w) && w.view.CommentBox?
    ensures Valid(CommentSubmit(w, name, content, net).widget)
  {
    var t := CommentSubmit(w, name, content, net);
  }

  /** Every event keeps the widget valid, whichever code handler runs. */
  lemma StepValid(h: OtpHandling, w: Widget, e: Event)
    requires Valid(w)
    ensures Valid(Step(h, w, e).widget)
  {
    match e
    case TimerFires =>
      if w.pending != [] {
        assert w.pending[0] == 2 || w.pending[0] == 3;
        RenderValid(w.(step := w.pending[0], pending := w.pending[1..]));
      }
    case Submitted(f, net) =>
      if !w.loading && HasForm(w.view) && !w.submitDisabled {
        var busy := w.(loading := true);
        if w.step == 1 {
          EmailSubmitValid(busy, f.email, net.requestOtp);
        } else if w.step == 2 {
          OtpSubmitValid(busy, f.otp, net.verifyOtp);
        } else {
          CommentSubmitValid(busy, f.name, f.content, net);
        }
      }
  }

  /** A run of events keeps the widget valid. */
  lemma {:induction false} RunValid(h: OtpHandling, w: Widget, events: seq<Event>)
    requires Valid(w)
    ensures Valid(Run(h, w, events).widget)
    decreases |events|
  {
    if |events| > 0 {
      StepValid(h, w, events[0]);
      RunValid(h, Step(h, w, events[0]).widget, events[1..]);
    }
  }

  /** While `loading` is set the widget sends nothing and stays busy,
      whatever happens: submissions are ignored and timers do not touch the
      flag. */
  lemma {:induction false} BusyStaysBusy(h: OtpHandling, w: Widget, events: seq<Event>)
    requires w.loading
    ensures Run(h, w, events).sent == [] && Run(h, w, events).widget.loading
    decreases |events|
  {
    if |events| > 0 {
      var first := Step(h, w, events[0]);
      assert first.sent == [] && first.widget.loading;
      BusyStaysBusy(h, first.widget, events[1..]);
    }
  }

  /** As written, the first submission of the code form leaves `loading`
      set, so nothing after it is ever sent again, whatever the answer and
      whatever follows. */
  lemma OtpSubmissionStalls(w: Widget, f: Fields, net: Net, later: seq<Event>)
    requires Valid(w) && w.step == 2 && !w.loading && !w.submitDisabled
    ensures var t := Run(AsWritten, w, [Submitted(f, net)] + later);
      t.widget.loading && t.sent == Submit(AsWritten, w, f, net).sent && |t.sent| <= 1
  {
    var first := Step(AsWritten, w, Submitted(f, net));
    assert first.widget.loading;
    BusyStaysBusy(AsWritten, first.widget, later);
    assert ([Submitted(f, net)] + later)[1..] == later;
  }

  /** With `loading` cleared, every submission the widget acts on leaves it
      ready for the next one. */
  lemma SubmissionReleases(w: Widget, f: Fields, net: Net)
    requires Valid(w) && !w.loading && !w.submitDisabled
    ensures !Submit(ClearsLoading, w, f, net).widget.loading
  {
  }

  /** A successful email request moves to the code form. */
  lemma EmailAdvances(h: OtpHandling, w: Widget, f: Fields, net: Net)
    requires Valid(w) && w.step == 1 && !w.loading && !w.submitDisabled
    requires Trim(f.email) != "" && net.requestOtp.Got? && Ok(net.requestOtp.response)
    ensures var t := Submit(h, w, f, net);
      t.widget.userEmail == Trim(f.email) && t.widget.step == 2 && t.widget.view == OtpForm && !t.widget.loading
  {
    var busy := w.(loading := true);
    var next := busy.(userEmail := Trim(f.email), step := 2);
    assert Submit(h, w, f, net) == EmailSubmit(busy, f.email, net.requestOtp);
    assert EmailSubmit(busy, f.email, net.requestOtp).widget == Render(next).(loading := false);
  }

  /** A visitor's session: the widget's `api-base` and numeric `post-id`,
      and what the visitor types and the server answers. */
  datatype Visit = Visit(api: string, post: nat, email: string, code: string, token: string, name: string, content: string)

  /** Inputs a visitor can complete the form with: non-blank and already
      trimmed, and a non-empty token in the answer. */
  predicate Plausible(v: Visit) {
    && v.api != "" && v.token != ""
    && v.email != "" && Trim(v.email) == v.email
    && v.code != "" && Trim(v.code) == v.code
    && v.name != "" && Trim(v.name) == v.name
    && v.content != "" && Trim(v.content) == v.content
  }

  /** The session's events: request a code, submit it (answered with the
      token), wait for the switch to the comment form, and post the comment.
      Requests the handlers do not make are given as rejected. */
  function EmailEvent(v: Visit): Event {
    Submitted(Fields(v.email, "", "", ""), Net(Got(Response(200, None, "", Failure(""))), Threw(""), Threw(""), Threw("")))
  }
  function CodeEvent(v: Visit): Event {
    Submitted(Fields("", v.code, "", ""),
              Net(Threw(""), Got(Response(200, Some("application/json"), "", Success(Obj([("token", Str(v.token))])))), Threw(""), Threw("")))
  }
  function CommentEvent(v: Visit): Event {
    Submitted(Fields("", "", v.name, v.content),
              Net(Threw(""), Threw(""), Threw(""), Got(Response(201, Some("application/json"), "", Success(Obj([]))))))
  }
  function Session(v: Visit): seq<Event> {
    [EmailEvent(v), CodeEvent(v), TimerFires, CommentEvent(v)]
  }

  /** The widget attached with the visit's attributes and an empty
      `localStorage`. */
  function SessionStart(v: Visit): Widget {
    Attach(Some(Decimal(v.post)), Some(v.api), map[], Threw("")).widget
  }

  /** Running a first event, then the rest. */
  lemma RunCons(h: OtpHandling, w: Widget, e: Event, rest: seq<Event>)
    ensures var first := Step(h, w, e);
      Run(h, w, [e] + rest) == Turn(Run(h, first.widget, rest).widget, first.sent + Run(h, first.widget, rest).sent)
  {
    assert ([e] + rest)[1..] == rest;
  }

  /** The session's states: attached, after the code request, after the
      code (busy or not), on the comment form, and after the comment. */
  function W0(v: Visit): Widget {
    Widget(1, false, Null, map[], "", v.api, Decimal(v.post), Num(v.post), EmailForm, None, false, [], false)
  }
  function W1(v: Visit): Widget {
    Widget(2, false, Null, map[], v.email, v.api, Decimal(v.post), Num(v.post), OtpForm, None, false, [], false)
  }
  function W2(v: Visit, loading: bool): Widget {
    Widget(2, loading, Str(v.token), map[TokenKey := v.token], v.email, v.api, Decimal(v.post), Num(v.post), OtpForm,
           Some(Message(OtpAccepted, false)), false, [3], false)
  }
  function W3(v: Visit): Widget {
    Widget(3, false, Str(v.token), map[TokenKey := v.token], v.email, v.api, Decimal(v.post), Num(v.post), CommentBox(""),
           None, false, [], false)
  }
  function W4(v: Visit): Widget {
    Widget(3, false, Str(v.token), map[TokenKey := v.token, NameKey := v.name], v.email, v.api, Decimal(v.post), Num(v.post),
           CommentBox(""), Some(Message(CommentSent, false)), true, [], true)
  }

  lemma SessionStartState(v: Visit)
    requires Plausible(v)
    ensures SessionStart(v) == W0(v)
  {
    DigitsValueOfDecimal(v.post);
  }

  lemma SessionEmailStep(h: OtpHandling, v: Visit)
    requires Plausible(v)
    ensures Step(h, W0(v), EmailEvent(v)) == Turn(W1(v), [RequestOtp(v.api + "/comments/request-otp", v.email)])
  {
    var busy := W0(v).(loading := true);
    assert EffectiveJwt(busy.jwt, busy.store).None?;
    assert EmailSubmit(busy, v.email, EmailEvent(v).net.requestOtp).widget == Render(busy.(userEmail := v.email, step := 2)).(loading := false);
  }

  lemma SessionCodeStep(h: OtpHandling, v: Visit)
    requires Plausible(v)
    ensures Step(h, W1(v), CodeEvent(v)) == Turn(W2(v, h == AsWritten), [VerifyOtp(v.api + "/comments/verify-otp", v.email, v.code)])
  {
    assert Field(Obj([("token", Str(v.token))]), "token") == Success(Some(Str(v.token)));
  }

  lemma SessionTimerStep(h: OtpHandling, v: Visit, loading: bool)
    requires Plausible(v)
    ensures Step(h, W2(v, loading), TimerFires).widget == W3(v).(loading := loading)
  {
  }

  lemma SessionCommentStep(v: Visit)
    requires Plausible(v)
    ensures Step(ClearsLoading, W3(v), CommentEvent(v))
      == Turn(W4(v), [PostComment(v.api + "/comments", "Bearer " + v.token, Num(v.post), v.name, v.content)])
  {
    var busy := W3(v).(loading := true);
    var net := CommentEvent(v).net;
    var post := PostComment(v.api + "/comments", "Bearer " + v.token, Num(v.post), v.name, v.content);
    assert Step(ClearsLoading, W3(v), CommentEvent(v)) == CommentSubmit(busy, v.name, v.content, net);
    assert EffectiveJwt(busy.jwt, busy.store) == Some(v.token);
    assert EnsurePostId(busy, net.lookup) == Turn(busy, []) by {
      if !Truthy(busy.numericPostId) {
        DigitsValueOfDecimal(v.post);
      }
    }
    assert CommentSubmit(busy, v.name, v.content, net) == Turn(AfterPost(busy, v.name, net.postComment).(loading := false), [post]);
    PostedState(v);
  }

  /** The accepted comment leaves the widget in the session's final state. */
  lemma PostedState(v: Visit)
    ensures AfterPost(W3(v).(loading := true), v.name, CommentEvent(v).net.postComment).(loading := false) == W4(v)
  {
  }

  lemma SessionFromComment(v: Visit)
    requires Plausible(v)
    ensures Run(ClearsLoading, W3(v), [CommentEvent(v)])
      == Turn(W4(v), [PostComment(v.api + "/comments", "Bearer " + v.token, Num(v.post), v.name, v.content)])
  {
    SessionCommentStep(v);
    RunCons(ClearsLoading, W3(v), CommentEvent(v), []);
    assert [CommentEvent(v)] == [CommentEvent(v)] + [];
  }

  lemma SessionFromTimer(v: Visit)
    requires Plausible(v)
    ensures Run(ClearsLoading, W2(v, false), [TimerFires, CommentEvent(v)])
      == Turn(W4(v), [PostComment(v.api + "/comments", "Bearer " + v.token, Num(v.post), v.name, v.content)])
  {
    SessionTimerStep(ClearsLoading, v, false);
    SessionFromComment(v);
    RunCons(ClearsLoading, W2(v, false), TimerFires, [CommentEvent(v)]);
    assert [TimerFires, CommentEvent(v)] == [TimerFires] + [CommentEvent(v)];
  }

  lemma SessionFromCode(v: Visit)
    requires Plausible(v)
    ensures Run(ClearsLoading, W1(v), Session(v)[1..])
      == Turn(W4(v), [VerifyOtp(v.api + "/comments/verify-otp", v.email, v.code),
                      PostComment(v.api + "/comments", "Bearer " + v.token, Num(v.post), v.name, v.content)])
  {
    var rest := [TimerFires, CommentEvent(v)];
    SessionCodeStep(ClearsLoading, v);
    RunCons(ClearsLoading, W1(v), CodeEvent(v), rest);
    assert Session(v)[1..] == [CodeEvent(v)] + rest;
    SessionFromTimer(v);
  }

  lemma SessionStallsAfterCode(v: Visit)
    requires Plausible(v)
    ensures var t := Run(AsWritten, W1(v), Session(v)[1..]);
      t.widget.loading && t.sent == [VerifyOtp(v.api + "/comments/verify-otp", v.email, v.code)]
  {
    var rest := [TimerFires, CommentEvent(v)];
    SessionCodeStep(AsWritten, v);
    RunCons(AsWritten, W1(v), CodeEvent(v), rest);
    assert Session(v)[1..] == [CodeEvent(v)] + rest;
    BusyStaysBusy(AsWritten, W2(v, true), rest);
  }

  /** With `loading` cleared after the code, a session ends on the comment
      form's final state, having sent all three requests. */
  lemma SessionPosts(v: Visit)
    requires Plausible(v)
    ensures Run(ClearsLoading, SessionStart(v), Session(v)) == Turn(W4(v), [
      RequestOtp(v.api + "/comments/request-otp", v.email),
      VerifyOtp(v.api + "/comments/verify-otp", v.email, v.code),
      PostComment(v.api + "/comments", "Bearer " + v.token, Num(v.post), v.name, v.content)])
  {
    SessionStartState(v);
    SessionEmailStep(ClearsLoading, v);
    RunCons(ClearsLoading, W0(v), EmailEvent(v), Session(v)[1..]);
    assert Session(v) == [EmailEvent(v)] + Session(v)[1..];
    SessionFromCode(v);
  }

  /** As written, a session sends the code request and the code, and then
      stays busy. */
  lemma SessionStalls(v: Visit)
    requires Plausible(v)
    ensures var t := Run(AsWritten, SessionStart(v), Session(v));
      && t.sent == [RequestOtp(v.api + "/comments/request-otp", v.email),
                    VerifyOtp(v.api + "/comments/verify-otp", v.email, v.code)]
      && t.widget.loading
  {
    SessionStartState(v);
    SessionEmailStep(AsWritten, v);
    RunCons(AsWritten, W0(v), EmailEvent(v), Session(v)[1..]);
    assert Session(v) == [EmailEvent(v)] + Session(v)[1..];
    SessionStallsAfterCode(v);
  }

  /** A whole session under both code handlers. With `loading` cleared after
      the code, the widget reaches the comment form, posts the comment with
      the token and the post's number, saves the name and schedules the
      reload. As written, it never posts: after the code it stays busy and
      ignores the comment form. */
  lemma SessionOutcome(h: OtpHandling, v: Visit)
    requires Plausible(v)
    ensures h == ClearsLoading ==> var t := Run(h, SessionStart(v), Session(v));
      && t.sent == [
           RequestOtp(v.api + "/comments/request-otp", v.email),
           VerifyOtp(v.api + "/comments/verify-otp", v.email, v.code),
           PostComment(v.api + "/comments", "Bearer " + v.token, Num(v.post), v.name, v.content)]
      && t.widget.reloadScheduled && t.widget.store == map[TokenKey := v.token, NameKey := v.name]
    ensures h == AsWritten ==> var t := Run(h, SessionStart(v), Session(v));
      && t.sent == [
           RequestOtp(v.api + "/comments/request-otp", v.email),
           VerifyOtp(v.api + "/comments/verify-otp", v.email, v.code)]
      && t.widget.loading
  {
    if h == ClearsLoading {
      SessionPosts(v);
    } else {
      SessionStalls(v);
    }
  }
}

=== FILE: http.dfy ===
/** The request and response shapes shared by the proxy endpoint, the API
    client and the tenant fetch. A `fetch` is not performed here: its outcome
    is an input. */
module Http {
  import opened Wrappers
  import opened Strings
  import opened Json

  /** Used when neither a base URL nor `PUBLIC_API_URL` is configured. */
  const DefaultApiBase := "https://taita-api.onrender.com/api"

  /** `import.meta.env.PUBLIC_API_URL || DefaultApiBase`. */
  function ApiBase(configured: Option<string>): (base: string)
    ensures base != ""
    ensures configured.Some? && configured.value != "" ==> base == configured.value
    ensures configured.None? || configured.value == "" ==> base == DefaultApiBase
  {
    if configured.Some? && configured.value != "" then configured.value else DefaultApiBase
  }

  /** What the code reads of a fetch `Response`: its status, its
      `content-type` header (`None` when absent), its body as text, and what
      `response.json()` makes of that body (the parsed value, or the message
      of the `SyntaxError` it throws). */
  datatype Response = Response(status: int, contentType: Option<string>, text: string, json: Result<Value, string>)

  /** `response.ok`. */
  predicate Ok(r: Response) {
    200 <= r.status <= 299
  }

  /** A `fetch` either rejects (transport failure, with a message) or
      resolves to a response. */
  datatype Outcome = Threw(message: string) | Got(response: Response)

  /** `contentType && contentType.includes('application/json')`. */
  predicate IsJson(contentType: Option<string>) {
    contentType.Some? && Includes(contentType.value, "application/json")
  }

  /** A body as a caller receives it: a parsed JSON value or plain text. */
  datatype Body = JsonBody(value: Value) | TextBody(text: string)

  /** What a request sends as its body: nothing, a string as it is, or the
      `JSON.stringify` of a value. */
  datatype WireBody = NoBody | Raw(text: string) | Serialized(value: Value)

  /** The methods for which a body is attached. */
  predicate HasBodyMethod(verb: string) {
    verb == "POST" || verb == "PUT" || verb == "PATCH"
  }

  /** `p.startsWith('/') ? p : '/' + p`. The result always starts with `/`,
      a path that already does is returned unchanged (so normalising twice is
      normalising once), and otherwise exactly one `/` is put in front. */
  function WithLeadingSlash(p: string): (r: string)
    ensures "/" <= r
    ensures "/" <= p ==> r == p
    ensures !("/" <= p) ==> |r| == |p| + 1 && r[1..] == p
  {
    if "/" <= p then p else "/" + p
  }

  /** Normalising a normalised path changes nothing. */
  lemma WithLeadingSlashIdempotent(p: string)
    ensures WithLeadingSlash(WithLeadingSlash(p)) == WithLeadingSlash(p)
  {
  }
}

=== FILE: json.dfy ===
/** Parsed JSON values and the two JavaScript coercions the code applies to
    them: truthiness and conversion to text. */
module Json {
  import opened Wrappers
  import opened Strings

  /** A parsed JSON value; numbers are integers here. */
  datatype Value =
    | Null
    | Bool(b: bool)
    | Num(n: int)
    | Str(s: string)
    | Arr(items: seq<Value>)
    | Obj(fields: seq<(string, Value)>)

  /** JavaScript truthiness: `null`, `false`, `0` and `""` are falsy. */
  predicate Truthy(v: Value) {
    match v
    case Null => false
    case Bool(b) => b
    case Num(n) => n != 0
    case Str(s) => s != ""
    case _ => true
  }

  /** A field that is present (not `undefined`) and truthy. */
  predicate Present(v: Option<Value>) {
    v.Some? && Truthy(v.value)
  }

  /** The object `{error: message}` the handlers answer failures with. */
  function ErrorObject(message: string): Value {
    Obj([("error", Str(message))])
  }

  /** The value of the last field named `key`, as `JSON.parse` keeps the last
      of duplicated keys. */
  function LastValue(fields: seq<(string, Value)>, key: string): (r: Option<Value>)
    ensures r.None? <==> forall i :: 0 <= i < |fields| ==> fields[i].0 != key
  {
    if |fields| == 0 then None
    else if fields[|fields| - 1].0 == key then Some(fields[|fields| - 1].1)
    else
      var init := fields[..|fields| - 1];
      assert forall i :: 0 <= i < |init| ==> init[i] == fields[i];
      LastValue(init, key)
  }

  /** The value found is the one of the last field with that key, wherever
      it sits among the others. */
  lemma {:induction false} LastValueIs(fields: seq<(string, Value)>, key: string, i: int)
    requires 0 <= i < |fields| && fields[i].0 == key
    requires forall j :: i < j < |fields| ==> fields[j].0 != key
    ensures LastValue(fields, key) == Some(fields[i].1)
    decreases |fields|
  {
    if i < |fields| - 1 {
      var init := fields[..|fields| - 1];
      assert init[i] == fields[i];
      assert forall j :: i < j < |init| ==> init[j] == fields[j];
      LastValueIs(init, key, i);
    }
  }

  /** Property access `v[key]`: it throws on `null` and yields `undefined`
      (`None`) on values without that field. */
  function Field(v: Value, key: string): Result<Option<Value>, string>
  {
    match v
    case Null => Failure("Cannot read properties of null (reading '" + key + "')")
    case Obj(fields) => Success(LastValue(fields, key))
    case _ => Success(None)
  }

  /** `String(v)`, which is what `localStorage.setItem` stores and what a
      template literal inserts. */
  function ToText(v: Value): string
    decreases v, 1
  {
    match v
    case Null => "null"
    case Bool(b) => if b then "true" else "false"
    case Num(n) => if n < 0 then "-" + Decimal(-n) else Decimal(n)
    case Str(s) => s
    case Arr(items) => ItemsText(items)
    case Obj(_) => "[object Object]"
  }

  /** `String(array)`: the items' texts joined by commas, `null` items empty. */
  function ItemsText(items: seq<Value>): string
    decreases items, 0
  {
    if |items| == 0 then ""
    else
      var first := if items[0].Null? then "" else ToText(items[0]);
      if |items| == 1 then first else first + "," + ItemsText(items[1..])
  }
}

=== FILE: proxy.dfy ===
/** The proxy endpoint (src/pages/api/proxy.js, `post`): re-issues a request
    described in a JSON body to the upstream API with the tenant headers added,
    and relays the answer as JSON or text with the upstream status. */
module Proxy {
  import opened Wrappers
  import opened Strings
  import opened Json
  import opened Http
  import opened Query

  const EndpointRequired := "Se requiere un endpoint"

  /** The site the upstream API expects requests to come from. */
  const SiteOrigin := "https://taita.blog"

  /** The fields of the JSON body posted to the proxy, `None` for an absent
      field. `queryParams` lists the object's entries in order, with `None`
      for a `null` value. */
  datatype ProxyRequest = ProxyRequest(
    endpoint: Option<string>,
    verb: Option<string>,
    body: Option<Value>,
    queryParams: Option<seq<(string, Option<string>)>>,
    subdomain: Option<string>)

  /** The request sent upstream. */
  datatype UpstreamRequest = UpstreamRequest(url: string, verb: string, headers: map<string, string>, body: WireBody)

  /** The response the proxy returns: status, `Content-Type` and body. */
  datatype Reply = Reply(status: int, contentType: string, body: Body)

  /** What one call of `post` does: the upstream requests it makes (none or
      one) and the reply. */
  datatype Handled = Handled(upstream: seq<UpstreamRequest>, reply: Reply)

  /** `method = 'GET'` in the destructuring: the default applies only to an
      absent field. */
  function VerbOf(r: ProxyRequest): string {
    r.verb.GetOr("GET")
  }

  /** The entries `searchParams.append` receives: those whose value is not
      null, in order. */
  function Assigned(entries: seq<(string, Option<string>)>): (kept: seq<(string, string)>)
    ensures |kept| <= |entries|
    ensures forall i :: 0 <= i < |kept| ==> (kept[i].0, Some(kept[i].1)) in entries
    ensures forall j :: 0 <= j < |entries| && entries[j].1.Some? ==> (entries[j].0, entries[j].1.value) in kept
    ensures kept == [] <==> forall j :: 0 <= j < |entries| ==> entries[j].1.None?
  {
    if |entries| == 0 then []
    else
      var rest := Assigned(entries[1..]);
      assert forall j :: 1 <= j < |entries| ==> entries[j] == entries[1..][j - 1];
      if entries[0].1.Some? then [(entries[0].0, entries[0].1.value)] + rest else rest
  }

  /** The kept entries keep their order: filtering a concatenation is
      concatenating the filtered parts, so the query string lists the
      assigned keys in the order the object lists them. */
  lemma {:induction false} AssignedConcat(a: seq<(string, Option<string>)>, b: seq<(string, Option<string>)>)
    ensures Assigned(a + b) == Assigned(a) + Assigned(b)
    decreases |a|
  {
    if |a| == 0 {
      assert a + b == b;
    } else {
      assert (a + b)[1..] == a[1..] + b;
      AssignedConcat(a[1..], b);
    }
  }

  /** The text appended to the upstream URL for the `queryParams` field:
      nothing when it is absent or has no keys, else `?` and the non-null
      entries serialised, which is a bare `?` when every value is null. */
  function QuerySuffix(queryParams: Option<seq<(string, Option<string>)>>): string
  {
    if queryParams.Some? && |queryParams.value| > 0 then "?" + Serialize(Assigned(queryParams.value))
    else ""
  }

  /** The upstream URL: the API base, the endpoint with exactly one leading
      `/` ensured, and the query suffix. */
  function UpstreamUrl(base: string, endpoint: string, queryParams: Option<seq<(string, Option<string>)>>): string
  {
    base + WithLeadingSlash(endpoint) + QuerySuffix(queryParams)
  }

  /** A query suffix is added exactly when `queryParams` has a key; with every
      value null it is a bare `?`. */
  lemma QuerySuffixShape(queryParams: Option<seq<(string, Option<string>)>>)
    ensures QuerySuffix(queryParams) != "" <==> queryParams.Some? && |queryParams.value| > 0
    ensures queryParams.Some? && |queryParams.value| > 0 && (forall j :: 0 <= j < |queryParams.value| ==> queryParams.value[j].1.None?)
      ==> QuerySuffix(queryParams) == "?"
    ensures queryParams.Some? && |queryParams.value| > 0 ==> "?" <= QuerySuffix(queryParams)
  {
  }

  /** The subdomain the proxy works for: an explicit non-empty one wins;
      otherwise a dotted host not starting with "www." gives its first label;
      otherwise a host mentioning "localhost" gives "demo"; otherwise "". */
  function DeriveSubdomain(explicit: Option<string>, host: string): (sub: string)
    ensures explicit.Some? && explicit.value != "" ==> sub == explicit.value
    ensures !(explicit.Some? && explicit.value != "") && '.' in host && !("www." <= host) ==>
      sub <= host && '.' !in sub && host[|sub|] == '.'
    ensures !(explicit.Some? && explicit.value != "") && !('.' in host && !("www." <= host)) ==>
      sub == (if Includes(host, "localhost") then "demo" else "")
  {
    IncludesChar(host, '.');
    var given := explicit.GetOr("");
    if given != "" then given
    else if Includes(host, ".") && !("www." <= host) then FirstLabel(host, '.')
    else if Includes(host, "localhost") then "demo"
    else ""
  }

  /** `subdomain || 'demo'`: the `X-Taita-Subdomain` header is never empty. */
  function SubdomainHeader(sub: string): (h: string)
    ensures h != ""
    ensures sub != "" ==> h == sub
    ensures sub == "" ==> h == "demo"
  {
    if sub != "" then sub else "demo"
  }

  /** The headers sent upstream. */
  function UpstreamHeaders(host: string, sub: string): map<string, string>
  {
    map[
      "Content-Type" := "application/json",
      "Accept" := "application/json",
      "Host" := host,
      "X-Taita-Subdomain" := SubdomainHeader(sub),
      "Origin" := SiteOrigin,
      "Referer" := SiteOrigin + "/"
    ]
  }

  /** The body sent upstream: the serialised `body` field, only when it is
      truthy and the method is POST, PUT or PATCH. */
  function UpstreamBody(verb: string, body: Option<Value>): (w: WireBody)
    ensures w != NoBody <==> Present(body) && HasBodyMethod(verb)
    ensures w != NoBody ==> w == Serialized(body.value)
  {
    if Present(body) && HasBodyMethod(verb) then Serialized(body.value) else NoBody
  }

  /** The upstream request for a request that names an endpoint. */
  function Prepare(r: ProxyRequest, host: string, base: string): (u: UpstreamRequest)
    requires r.endpoint.Some?
    ensures u.url == UpstreamUrl(base, r.endpoint.value, r.queryParams)
    ensures u.verb == VerbOf(r)
    ensures "X-Taita-Subdomain" in u.headers && u.headers["X-Taita-Subdomain"] == SubdomainHeader(DeriveSubdomain(r.subdomain, host))
    ensures "Host" in u.headers && u.headers["Host"] == host
    ensures u.headers.Keys == {"Content-Type", "Accept", "Host", "X-Taita-Subdomain", "Origin", "Referer"}
    ensures u.body == UpstreamBody(VerbOf(r), r.body)
    ensures u.body != NoBody <==> Present(r.body) && HasBodyMethod(VerbOf(r))
  {
    var sub := DeriveSubdomain(r.subdomain, host);
    UpstreamRequest(
      UpstreamUrl(base, r.endpoint.value, r.queryParams),
      VerbOf(r),
      UpstreamHeaders(host, sub),
      UpstreamBody(VerbOf(r), r.body))
  }

  /** A JSON reply. */
  function JsonReply(status: int, v: Value): Reply {
    Reply(status, "application/json", JsonBody(v))
  }

  /** The null body statuses of the WHATWG Fetch standard: a `Response`
      built with one of them and a non-null body throws a `TypeError`. */
  predicate NullBodyStatus(status: int) {
    status == 101 || status == 103 || status == 204 || status == 205 || status == 304
  }

  /** The statuses a `Response` can be built with at all; the constructor
      throws a `RangeError` for any other. */
  predicate InRange(status: int) {
    200 <= status <= 599
  }

  /** The statuses the `Response` constructor refuses with a string body. */
  predicate Unbuildable(status: int) {
    !InRange(status) || NullBodyStatus(status)
  }

  /** The message of the `RangeError` (the wording is the runtime's). */
  const StatusOutOfRange := "init[\"status\"] must be in the range of 200 to 599, inclusive."

  /** The message of the `TypeError` (the wording is the runtime's). */
  function InvalidStatus(status: nat): string {
    "Response constructor: Invalid response status code " + Decimal(status)
  }

  /** What the constructor throws for an unbuildable status: the range is
      checked first, so 101 and 103 get the `RangeError`. */
  function ConstructorError(status: int): (message: string)
    requires Unbuildable(status)
    ensures !InRange(status) ==> message == StatusOutOfRange
    ensures InRange(status) ==> NullBodyStatus(status) && message == InvalidStatus(status)
  {
    if !InRange(status) then StatusOutOfRange else InvalidStatus(status)
  }

  /** The reply for the upstream outcome, with the JSON parse failure falling
      back to the body text as intended. A thrown fetch becomes a 500 with the
      error's message. Both replies the code builds carry a string body, so an
      upstream status the `Response` constructor refuses (a null body status
      such as 204, or one outside 200 to 599) ends in the same 500. Otherwise
      the upstream status is mirrored, a JSON content type that parses is
      relayed as JSON, one that does not is relayed as `text/plain`, and any
      other body is relayed as text under the upstream content type
      (`text/plain` when there is none). A reply is declared JSON exactly when
      its body is JSON. */
  function Respond(upstream: Outcome): (reply: Reply)
    ensures upstream.Threw? ==> reply == JsonReply(500, ErrorObject(upstream.message))
    ensures upstream.Got? && Unbuildable(upstream.response.status) ==>
      reply == JsonReply(500, ErrorObject(ConstructorError(upstream.response.status)))
    ensures upstream.Got? && !Unbuildable(upstream.response.status) ==> reply.status == upstream.response.status
    ensures (upstream.Got? && !Unbuildable(upstream.response.status) && IsJson(upstream.response.contentType)
             && upstream.response.json.Success?) ==>
      reply == JsonReply(upstream.response.status, upstream.response.json.value)
    ensures (upstream.Got? && !Unbuildable(upstream.response.status) && IsJson(upstream.response.contentType)
             && upstream.response.json.Failure?) ==>
      reply == Reply(upstream.response.status, "text/plain", TextBody(upstream.response.text))
    ensures upstream.Got? && !Unbuildable(upstream.response.status) && !IsJson(upstream.response.contentType) ==>
      reply.body == TextBody(upstream.response.text) &&
      reply.contentType == (if upstream.response.contentType.Some? && upstream.response.contentType.value != ""
                            then upstream.response.contentType.value else "text/plain")
    ensures reply.body.JsonBody? <==> reply.contentType == "application/json"
  {
    match upstream
    case Threw(message) => JsonReply(500, ErrorObject(message))
    case Got(response) =>
      var ct := response.contentType;
      if Unbuildable(response.status) then JsonReply(500, ErrorObject(ConstructorError(response.status)))
      else if IsJson(ct) then
        match response.json
        case Success(v) => JsonReply(response.status, v)
        case Failure(_) => Reply(response.status, "text/plain", TextBody(response.text))
      else
        var declared := if ct.Some? && ct.value != "" then ct.value else "text/plain";
        assert declared != "application/json" by {
          assert Includes("application/json", "application/json");
        }
        Reply(response.status, declared, TextBody(response.text))
  }

  /** A `HEAD` request in any letter case: `fetch` normalises the method
      name, and the answer to a `HEAD` request has a null body. */
  predicate IsHead(verb: string) {
    |verb| == 4 && forall i :: 0 <= i < 4 ==> verb[i] == "HEAD"[i] || verb[i] == "head"[i]
  }

  /** The message of the `TypeError` a fetch `Response` rejects `text()` with
      once `json()` has consumed its body (the wording is the runtime's). */
  const BodyUsed := "Body is unusable"

  /** The reply as the source computes it for a request made with `verb`:
      when `response.json()` rejects, the fallback `response.text()` reads a
      body that `json()` already consumed, so it rejects too and the request
      ends in the 500 handler before any `Response` is built, whatever the
      status. An answer with a null body (to a `HEAD` request, or under a null
      body status) is not consumed by `json()`: `text()` then gives `""` and
      the reply is `Respond`'s. */
  function RespondAsWritten(verb: string, upstream: Outcome): (reply: Reply)
    ensures (upstream.Got? && !NullBodyStatus(upstream.response.status) && !IsHead(verb)
             && IsJson(upstream.response.contentType) && upstream.response.json.Failure?) ==>
      reply == JsonReply(500, ErrorObject(BodyUsed))
    ensures upstream.Got? && NullBodyStatus(upstream.response.status) ==>
      reply == JsonReply(500, ErrorObject(ConstructorError(upstream.response.status)))
    ensures IsHead(verb) ==> reply == Respond(upstream)
    ensures !(upstream.Got? && !NullBodyStatus(upstream.response.status) && !IsHead(verb)
              && IsJson(upstream.response.contentType) && upstream.response.json.Failure?) ==>
      reply == Respond(upstream)
    ensures reply.status == 500 || (upstream.Got? && reply.status == upstream.response.status)
  {
    match upstream
    case Got(response) =>
      if !NullBodyStatus(response.status) && !IsHead(verb) && IsJson(response.contentType) && response.json.Failure? then
        JsonReply(500, ErrorObject(BodyUsed))
      else Respond(upstream)
    case Threw(_) => Respond(upstream)
  }

  /** An upstream answer labelled JSON whose body is not JSON: the source
      answers 500 where a `text/plain` copy of the upstream answer was meant. */
  lemma UnparsableJsonNeverFallsBack()
    ensures var upstream := Got(Response(200, Some("application/json"), "<html>busy</html>", Failure("Unexpected token '<'")));
      && RespondAsWritten("GET", upstream).status == 500
      && Respond(upstream) == Reply(200, "text/plain", TextBody("<html>busy</html>"))
  {
    assert OccursAt("application/json", "application/json", 0);
  }

  /** An answer whose status no `Response` can carry, labelled JSON but not
      parsable: as written, `text()` rejects first, so the error is the
      consumed body's and not the constructor's. */
  lemma OutOfRangeFailsOnBodyFirst(error: string)
    ensures var upstream := Got(Response(600, Some("application/json"), "oops", Failure(error)));
      && RespondAsWritten("GET", upstream) == JsonReply(500, ErrorObject(BodyUsed))
      && Respond(upstream) == JsonReply(500, ErrorObject(StatusOutOfRange))
  {
    assert !IsHead("GET");
    assert OccursAt("application/json", "application/json", 0);
  }

  /** Which fallback the JSON branch takes: the code as written (`text()` on
      the consumed body, so a 500), or the intended `text/plain` copy. */
  datatype JsonFallback = AsWritten | ReadsText

  /** The reply under either fallback, for a request made with `verb`. */
  function Relay(fallback: JsonFallback, verb: string, upstream: Outcome): (reply: Reply)
    ensures fallback == AsWritten ==> reply == RespondAsWritten(verb, upstream)
    ensures fallback == ReadsText ==> reply == Respond(upstream)
  {
    if fallback == AsWritten then RespondAsWritten(verb, upstream) else Respond(upstream)
  }

  /** `post({request})`, given what `request.json()` yields (the body, or the
      message of what it throws: an unparsable body, or destructuring `null`),
      the inbound `Host` header, the configured API base, and the outcome of
      the upstream `fetch`. With `AsWritten` this is the code as it stands. */
  function Post(fallback: JsonFallback, request: Result<ProxyRequest, string>, hostHeader: Option<string>,
                configuredBase: Option<string>, upstream: Outcome): (h: Handled)
    // An unreadable request body is a 500 and nothing is sent upstream.
    ensures request.Failure? ==> h == Handled([], JsonReply(500, ErrorObject(request.error)))
    // A missing or empty endpoint is a 400 and nothing is sent upstream.
    ensures request.Success? && (request.value.endpoint.None? || request.value.endpoint.value == "") ==>
      h == Handled([], JsonReply(400, ErrorObject(EndpointRequired)))
    // Otherwise exactly one upstream request, and the reply is built from its outcome.
    ensures request.Success? && request.value.endpoint.Some? && request.value.endpoint.value != "" ==>
      && |h.upstream| == 1
      && h.upstream[0] == Prepare(request.value, hostHeader.GetOr(""), ApiBase(configuredBase))
      && h.upstream[0].url == UpstreamUrl(ApiBase(configuredBase), request.value.endpoint.value, request.value.queryParams)
      && h.upstream[0].verb == VerbOf(request.value)
      && h.upstream[0].headers["X-Taita-Subdomain"] == SubdomainHeader(DeriveSubdomain(request.value.subdomain, hostHeader.GetOr("")))
      && h.upstream[0].body == UpstreamBody(VerbOf(request.value), request.value.body)
      && h.reply == Relay(fallback, VerbOf(request.value), upstream)
  {
    match request
    case Failure(message) => Handled([], JsonReply(500, ErrorObject(message)))
    case Success(r) =>
      if r.endpoint.None? || r.endpoint.value == "" then
        Handled([], JsonReply(400, ErrorObject(EndpointRequired)))
      else
        var u := Prepare(r, hostHeader.GetOr(""), ApiBase(configuredBase));
        Handled([u], Relay(fallback, VerbOf(r), upstream))
  }

  /** Every reply's status is 400 or 500 for the proxy's own failures, or the
      upstream status; when nothing was sent upstream it is one of the first two. */
  lemma PostStatus(fallback: JsonFallback, request: Result<ProxyRequest, string>, hostHeader: Option<string>,
                   configuredBase: Option<string>, upstream: Outcome)
    ensures var h := Post(fallback, request, hostHeader, configuredBase, upstream);
      h.reply.status == 400 || h.reply.status == 500 || (upstream.Got? && h.reply.status == upstream.response.status)
    ensures var h := Post(fallback, request, hostHeader, configuredBase, upstream);
      h.upstream == [] ==> (h.reply.status == 400 || h.reply.status == 500) && h.reply.contentType == "application/json"
  {
  }

  /** A plain-text upstream answer is relayed unmodified with its status,
      unless the `Response` constructor refuses that status, which ends in
      the 500. */
  lemma PlainTextPassesThrough(status: int, text: string, parsed: Result<Value, string>)
    ensures !Unbuildable(status) ==>
      Respond(Got(Response(status, Some("text/plain"), text, parsed))) == Reply(status, "text/plain", TextBody(text))
    ensures Unbuildable(status) ==>
      Respond(Got(Response(status, Some("text/plain"), text, parsed))).status == 500
  {
    var ct := "text/plain";
    assert !Includes(ct, "application/json") by {
      forall i ensures !OccursAt(ct, "application/json", i) {
      }
    }
  }

  /** An upstream `204 No Content`, the usual answer to a DELETE, reaches the
      caller as a 500 under either fallback. */
  lemma NoContentIsAnError(fallback: JsonFallback, verb: string, contentType: Option<string>, parsed: Result<Value, string>)
    ensures Relay(fallback, verb, Got(Response(204, contentType, "", parsed))) ==
      JsonReply(500, ErrorObject("Response constructor: Invalid response status code 204"))
  {
    assert Decimal(2) == "2";
    assert Decimal(20) == "20";
    assert Decimal(204) == "204";
    assert InvalidStatus(204) == "Response constructor: Invalid response status code 204";
    assert NullBodyStatus(204);
  }

  /** A proxied `HEAD` request to a JSON API: the answer has no body, so
      `json()` rejects without consuming anything, and even the code as
      written relays an empty `text/plain` reply with the upstream status. */
  lemma HeadRelaysEmptyText(fallback: JsonFallback, hostHeader: Option<string>, configuredBase: Option<string>, error: string)
    ensures var request := Success(ProxyRequest(Some("/x"), Some("HEAD"), None, None, None));
      var upstream := Got(Response(200, Some("application/json"), "", Failure(error)));
      Post(fallback, request, hostHeader, configuredBase, upstream).reply == Reply(200, "text/plain", TextBody(""))
  {
    assert IsHead("HEAD");
    assert OccursAt("application/json", "application/json", 0);
  }
}

=== FILE: query.dfy ===
/** Query strings as `URLSearchParams` reads and writes them, without
    percent-encoding: the API client parses one into a key/value object and the
    proxy endpoint serialises the object back. */
module Query {
  import opened Wrappers
  import opened Strings

  /** One `key=value` segment split at its first `=`; a segment without `=`
      is a key with an empty value. */
  function ParsePair(segment: string): (kv: (string, string))
    ensures '=' !in kv.0
    ensures '=' in segment ==> segment == kv.0 + "=" + kv.1
    ensures '=' !in segment ==> kv == (segment, "")
  {
    if '=' in segment then
      FirstAndRest(segment, '=');
      (FirstLabel(segment, '='), AfterFirst(segment, '='))
    else (segment, "")
  }

  /** The pairs of the `&`-separated segments, in order, empty segments
      skipped. */
  function PairsOf(segments: seq<string>): seq<(string, string)>
  {
    if |segments| == 0 then []
    else (if segments[0] == "" then [] else [ParsePair(segments[0])]) + PairsOf(segments[1..])
  }

  /** The pairs `new URLSearchParams(qs).forEach` visits, in order. */
  function ParsePairs(qs: string): seq<(string, string)>
  {
    PairsOf(Split(qs, '&'))
  }

  /** The key is bound by some pair. */
  predicate Binds(pairs: seq<(string, string)>, key: string) {
    exists i :: 0 <= i < |pairs| && pairs[i].0 == key
  }

  /** Pair `i` is the last one with its key. */
  predicate LastOfKey(pairs: seq<(string, string)>, i: int)
    requires 0 <= i < |pairs|
  {
    forall j :: i < j < |pairs| ==> pairs[j].0 != pairs[i].0
  }

  /** The object built by assigning the pairs in order: its keys are exactly
      the pairs' keys, and each key holds the value of its last pair. */
  function ToMap(pairs: seq<(string, string)>): (m: map<string, string>)
    ensures forall key :: key in m <==> Binds(pairs, key)
    ensures forall i :: 0 <= i < |pairs| && LastOfKey(pairs, i) ==> pairs[i].0 in m && m[pairs[i].0] == pairs[i].1
    decreases |pairs|
  {
    if |pairs| == 0 then map[]
    else
      var init := pairs[..|pairs| - 1];
      var last := pairs[|pairs| - 1];
      assert pairs == init + [last];
      AssignLast(init, last, ToMap(init));
      ToMap(init)[last.0 := last.1]
  }

  /** Assigning one more pair keeps the object in step with the pairs. */
  lemma AssignLast(init: seq<(string, string)>, last: (string, string), m: map<string, string>)
    requires forall key :: key in m <==> Binds(init, key)
    requires forall i :: 0 <= i < |init| && LastOfKey(init, i) ==> init[i].0 in m && m[init[i].0] == init[i].1
    ensures forall key :: key in m[last.0 := last.1] <==> Binds(init + [last], key)
    ensures forall i :: 0 <= i < |init| + 1 && LastOfKey(init + [last], i) ==>
      (init + [last])[i].0 in m[last.0 := last.1] && m[last.0 := last.1][(init + [last])[i].0] == (init + [last])[i].1
  {
    var pairs := init + [last];
    var m' := m[last.0 := last.1];
    forall key ensures key in m' <==> Binds(pairs, key) {
      if Binds(init, key) {
        var i :| 0 <= i < |init| && init[i].0 == key;
        assert pairs[i] == init[i];
      }
      if Binds(pairs, key) && key != last.0 {
        var i :| 0 <= i < |pairs| && pairs[i].0 == key;
        assert i < |init| && init[i] == pairs[i];
      }
      assert pairs[|init|] == last;
    }
    forall i | 0 <= i < |pairs| && LastOfKey(pairs, i)
      ensures pairs[i].0 in m' && m'[pairs[i].0] == pairs[i].1
    {
      if i < |init| {
        assert pairs[i] == init[i];
        assert pairs[|init|] == last;
        forall j | i < j < |init| ensures init[j].0 != init[i].0 {
          assert pairs[j] == init[j];
        }
      }
    }
  }

  /** The query parameters `new URLSearchParams(qs)` yields as an object. */
  function ParseQuery(qs: string): map<string, string>
  {
    ToMap(ParsePairs(qs))
  }

  /** The `key=value` text of each pair. */
  function Segments(pairs: seq<(string, string)>): (segs: seq<string>)
    ensures |segs| == |pairs|
    ensures forall i :: 0 <= i < |pairs| ==> segs[i] == pairs[i].0 + "=" + pairs[i].1
  {
    if |pairs| == 0 then [] else [pairs[0].0 + "=" + pairs[0].1] + Segments(pairs[1..])
  }

  /** `searchParams.toString()` after appending the pairs in order. */
  function Serialize(pairs: seq<(string, string)>): string
  {
    Join(Segments(pairs), '&')
  }

  /** Pairs whose text survives a serialise/parse round trip: no key holds
      `&` or `=`, no value holds `&`. */
  predicate WellFormed(pairs: seq<(string, string)>) {
    forall i :: 0 <= i < |pairs| ==> '&' !in pairs[i].0 && '=' !in pairs[i].0 && '&' !in pairs[i].1
  }

  /** The characters the `application/x-www-form-urlencoded` serializer of
      the WHATWG URL standard writes as they are, and its parser reads as
      they are: ASCII letters and digits and `*`, `-`, `.`, `_`. */
  predicate FormSafe(c: char) {
    ('a' <= c <= 'z') || ('A' <= c <= 'Z') || ('0' <= c <= '9') || c == '*' || c == '-' || c == '.' || c == '_'
  }

  predicate AllFormSafe(s: string) {
    forall k :: 0 <= k < |s| ==> FormSafe(s[k])
  }

  /** Pairs that percent-encoding and decoding leave as they are, so that
      the model's unencoded text is the text on the wire. */
  predicate Verbatim(pairs: seq<(string, string)>) {
    forall i :: 0 <= i < |pairs| ==> AllFormSafe(pairs[i].0) && AllFormSafe(pairs[i].1)
  }

  /** Verbatim pairs hold none of the query's delimiters. */
  lemma VerbatimDelimiters(pairs: seq<(string, string)>)
    requires Verbatim(pairs)
    ensures WellFormed(pairs)
    ensures forall i :: 0 <= i < |pairs| ==> '?' !in pairs[i].0 && '?' !in pairs[i].1
  {
    forall i | 0 <= i < |pairs|
      ensures '&' !in pairs[i].0 && '=' !in pairs[i].0 && '&' !in pairs[i].1
      ensures '?' !in pairs[i].0 && '?' !in pairs[i].1
    {
      assert AllFormSafe(pairs[i].0) && AllFormSafe(pairs[i].1);
    }
  }

  /** Parsing a segment built from a well-formed pair gives the pair back. */
  lemma ParsePairOfSegment(key: string, value: string)
    requires '=' !in key
    ensures ParsePair(key + "=" + value) == (key, value)
  {
    var seg := key + "=" + value;
    FirstLabelIs(seg, '=', key);
    assert key + ['='] <= seg;
    FirstAndRest(seg, '=');
    assert seg[|key| + 1..] == value;
  }

  /** Reading back the segments of well-formed pairs gives the pairs. */
  lemma {:induction false} PairsOfSegments(pairs: seq<(string, string)>)
    requires WellFormed(pairs)
    ensures PairsOf(Segments(pairs)) == pairs
    decreases |pairs|
  {
    if |pairs| > 0 {
      var head, rest := pairs[0], pairs[1..];
      var seg := head.0 + "=" + head.1;
      assert Segments(pairs) == [seg] + Segments(rest);
      PairsOfCons(seg, Segments(rest));
      ParsePairOfSegment(head.0, head.1);
      WellFormedTail(pairs);
      PairsOfSegments(rest);
      assert pairs == [head] + rest;
    }
  }

  /** A non-empty first segment contributes its pair in front. */
  lemma PairsOfCons(seg: string, segs: seq<string>)
    requires seg != ""
    ensures PairsOf([seg] + segs) == [ParsePair(seg)] + PairsOf(segs)
  {
    assert ([seg] + segs)[1..] == segs;
  }

  /** Dropping the first pair keeps the pairs well formed. */
  lemma WellFormedTail(pairs: seq<(string, string)>)
    requires |pairs| > 0 && WellFormed(pairs)
    ensures WellFormed(pairs[1..])
  {
    forall i | 0 <= i < |pairs| - 1
      ensures '&' !in pairs[1..][i].0 && '=' !in pairs[1..][i].0 && '&' !in pairs[1..][i].1
    {
      assert pairs[1..][i] == pairs[i + 1];
    }
  }

  /** `c` appears in a join only as the separator or inside a piece. */
  lemma {:induction false} JoinFree(parts: seq<string>, sep: char, c: char)
    requires c != sep
    requires forall k :: 0 <= k < |parts| ==> c !in parts[k]
    ensures c !in Join(parts, sep)
    decreases |parts|
  {
    if |parts| > 1 {
      assert forall k :: 0 <= k < |parts| - 1 ==> parts[1..][k] == parts[k + 1];
      JoinFree(parts[1..], sep, c);
    }
  }

  /** Well-formed pairs survive serialising and parsing, order included. */
  lemma ParseSerialize(pairs: seq<(string, string)>)
    requires WellFormed(pairs)
    ensures ParsePairs(Serialize(pairs)) == pairs
    ensures ParseQuery(Serialize(pairs)) == ToMap(pairs)
  {
    var segs := Segments(pairs);
    if |pairs| == 0 {
      assert Serialize(pairs) == "";
      assert IndexOf("", '&').None?;
      assert Split("", '&') == [""];
    } else {
      forall k | 0 <= k < |segs| ensures '&' !in segs[k] {
        JoinFree([pairs[k].0, pairs[k].1], '=', '&');
        assert Join([pairs[k].0, pairs[k].1], '=') == segs[k];
      }
      SplitJoin(segs, '&');
      PairsOfSegments(pairs);
    }
  }

  /** A serialised query holds no character that no key or value holds,
      other than `&` and `=`. */
  lemma SerializeFree(pairs: seq<(string, string)>, c: char)
    requires c != '&' && c != '='
    requires forall i :: 0 <= i < |pairs| ==> c !in pairs[i].0 && c !in pairs[i].1
    ensures c !in Serialize(pairs)
  {
    var segs := Segments(pairs);
    forall k | 0 <= k < |segs| ensures c !in segs[k] {
      JoinFree([pairs[k].0, pairs[k].1], '=', c);
      assert Join([pairs[k].0, pairs[k].1], '=') == segs[k];
    }
    JoinFree(segs, '&', c);
  }
}

=== FILE: strings.dfy ===
/** The JavaScript string operations the host and URL handling relies on:
    `includes`, `indexOf`, `split` and `join` on a one-character separator,
    `trim`, and the decimal digits of `/^\d+$/` and `Number`. */
module Strings {
  import opened Wrappers

  /** `sub` occurs in `s` starting at index `i`. */
  predicate OccursAt(s: string, sub: string, i: int) {
    0 <= i && i + |sub| <= |s| && s[i..i + |sub|] == sub
  }

  /** `s.includes(sub)`: a substring test anywhere in `s`, not a prefix or
      suffix test. */
  function Includes(s: string, sub: string): (b: bool)
    ensures b <==> exists i :: OccursAt(s, sub, i)
    decreases |s|
  {
    if sub <= s then
      assert OccursAt(s, sub, 0);
      true
    else if |s| == 0 then
      false
    else
      ShiftOccurrence(s, sub);
      Includes(s[1..], sub)
  }

  /** An occurrence in `s` is either at the front or an occurrence in `s[1..]`
      moved one place to the right. */
  lemma ShiftOccurrence(s: string, sub: string)
    requires |s| > 0
    ensures (exists i :: OccursAt(s, sub, i)) <==> (sub <= s || exists j :: OccursAt(s[1..], sub, j))
  {
    forall i | OccursAt(s, sub, i)
      ensures sub <= s || OccursAt(s[1..], sub, i - 1)
    {
      assert i > 0 ==> s[1..][i - 1..i - 1 + |sub|] == s[i..i + |sub|];
    }
    forall j | OccursAt(s[1..], sub, j)
      ensures OccursAt(s, sub, j + 1)
    {
      assert s[1..][j..j + |sub|] == s[j + 1..j + 1 + |sub|];
    }
    if sub <= s {
      assert OccursAt(s, sub, 0);
    }
  }

  /** For a one-character needle, `includes` is sequence membership. */
  lemma IncludesChar(s: string, c: char)
    ensures Includes(s, [c]) <==> c in s
  {
    forall i | OccursAt(s, [c], i) ensures c in s {
      assert s[i..i + 1][0] == s[i];
    }
    if c in s {
      var i :| 0 <= i < |s| && s[i] == c;
      assert s[i..i + 1] == [c];
      assert OccursAt(s, [c], i);
    }
  }

  /** `s.indexOf(c)`, with -1 as `None`: the first position holding `c`. */
  function IndexOf(s: string, c: char): (r: Option<nat>)
    ensures r.None? <==> c !in s
    ensures r.Some? ==> r.value < |s| && s[r.value] == c && c !in s[..r.value]
  {
    if |s| == 0 then None
    else if s[0] == c then Some(0)
    else
      assert s == [s[0]] + s[1..];
      match IndexOf(s[1..], c)
      case None => None
      case Some(i) =>
        assert s[..i + 1] == [s[0]] + s[1..][..i];
        Some(i + 1)
  }

  /** `s.split(sep)` for a one-character separator: the maximal
      separator-free pieces in order; there is always at least one. */
  function Split(s: string, sep: char): (parts: seq<string>)
    ensures |parts| >= 1
    ensures forall k :: 0 <= k < |parts| ==> sep !in parts[k]
    decreases |s|
  {
    match IndexOf(s, sep)
    case None => [s]
    case Some(i) => [s[..i]] + Split(s[i + 1..], sep)
  }

  /** `parts.join(sep)`. */
  function Join(parts: seq<string>, sep: char): string
  {
    if |parts| == 0 then ""
    else if |parts| == 1 then parts[0]
    else parts[0] + [sep] + Join(parts[1..], sep)
  }

  /** The number of occurrences of `c` in `s`. */
  function Count(s: string, c: char): nat
  {
    if |s| == 0 then 0 else (if s[0] == c then 1 else 0) + Count(s[1..], c)
  }

  /** `s.split(sep)[0]`: the text before the first separator, or all of `s`. */
  function FirstLabel(s: string, sep: char): (first: string)
    ensures first <= s
    ensures sep !in first
    ensures sep in s ==> |first| < |s| && s[|first|] == sep
    ensures sep !in s ==> first == s
  {
    Split(s, sep)[0]
  }

  /** `s.split(sep).slice(1).join(sep)`: the text after the first separator. */
  function AfterFirst(s: string, sep: char): string
  {
    Join(Split(s, sep)[1..], sep)
  }

  /** Joining what `split` produced gives back the original string. */
  lemma {:induction false} JoinSplit(s: string, sep: char)
    ensures Join(Split(s, sep), sep) == s
    decreases |s|
  {
    match IndexOf(s, sep)
    case None =>
    case Some(i) =>
      var rest := Split(s[i + 1..], sep);
      JoinSplit(s[i + 1..], sep);
      assert Split(s, sep) == [s[..i]] + rest;
      assert ([s[..i]] + rest)[1..] == rest;
      assert s == s[..i] + [sep] + s[i + 1..];
  }

  /** The first separator of `a + [sep] + b`, when `a` holds none, sits right
      after `a`. */
  lemma {:induction false} FirstSeparator(a: string, sep: char, b: string)
    requires sep !in a
    ensures IndexOf(a + [sep] + b, sep) == Some(|a|)
    decreases |a|
  {
    var s := a + [sep] + b;
    if |a| > 0 {
      assert s[0] == a[0];
      assert s[1..] == a[1..] + [sep] + b;
      FirstSeparator(a[1..], sep, b);
    }
  }

  /** Splitting a join of separator-free pieces gives back the pieces. */
  lemma {:induction false} SplitJoin(parts: seq<string>, sep: char)
    requires |parts| >= 1
    requires forall k :: 0 <= k < |parts| ==> sep !in parts[k]
    ensures Split(Join(parts, sep), sep) == parts
    decreases |parts|
  {
    if |parts| == 1 {
      assert IndexOf(parts[0], sep).None?;
    } else {
      var head, rest := parts[0], parts[1..];
      var tail := Join(rest, sep);
      var s := head + [sep] + tail;
      assert Join(parts, sep) == s;
      FirstSeparator(head, sep, tail);
      assert s[..|head|] == head;
      assert s[|head| + 1..] == tail;
      assert Split(s, sep) == [head] + Split(tail, sep);
      forall k | 0 <= k < |rest| ensures sep !in rest[k] {
        assert rest[k] == parts[k + 1];
      }
      SplitJoin(rest, sep);
      assert parts == [head] + rest;
    }
  }

  /** A string with two or more pieces is its first piece, the separator, and
      the rest. */
  lemma FirstAndRest(s: string, sep: char)
    requires sep in s
    ensures s == FirstLabel(s, sep) + [sep] + AfterFirst(s, sep)
  {
    var parts := Split(s, sep);
    var i := IndexOf(s, sep).value;
    assert parts == [s[..i]] + Split(s[i + 1..], sep);
    JoinSplit(s, sep);
    assert |parts| >= 2;
  }

  /** Occurrences add up over concatenation. */
  lemma {:induction false} CountConcat(a: string, b: string, c: char)
    ensures Count(a + b, c) == Count(a, c) + Count(b, c)
    decreases |a|
  {
    if |a| > 0 {
      assert (a + b)[1..] == a[1..] + b;
      CountConcat(a[1..], b, c);
    } else {
      assert a + b == b;
    }
  }

  /** A string holds `c` exactly when it has occurrences of it. */
  lemma {:induction false} CountZero(s: string, c: char)
    ensures c !in s <==> Count(s, c) == 0
    decreases |s|
  {
    if |s| > 0 {
      assert s == [s[0]] + s[1..];
      CountZero(s[1..], c);
    }
  }

  /** `split` yields one piece more than there are separators. */
  lemma {:induction false} SplitCount(s: string, sep: char)
    ensures |Split(s, sep)| == Count(s, sep) + 1
    decreases |s|
  {
    match IndexOf(s, sep)
    case None =>
      CountZero(s, sep);
    case Some(i) =>
      SplitCount(s[i + 1..], sep);
      assert s == s[..i] + ([sep] + s[i + 1..]);
      CountConcat(s[..i], [sep] + s[i + 1..], sep);
      CountConcat([sep], s[i + 1..], sep);
      CountZero(s[..i], sep);
  }

  /** A string of at least two pieces starts with `p` followed by the
      separator exactly when its first piece is `p` (for a separator-free `p`). */
  lemma FirstLabelIs(s: string, sep: char, p: string)
    requires sep !in p
    ensures (sep in s && FirstLabel(s, sep) == p) <==> p + [sep] <= s
  {
    if sep in s && FirstLabel(s, sep) == p {
      assert s[..|p| + 1] == p + [sep];
    }
    if p + [sep] <= s {
      var rest := s[|p| + 1..];
      assert s == p + [sep] + rest;
      FirstSeparator(p, sep, rest);
      assert s[..|p|] == p;
    }
  }

  /** The characters `String.prototype.trim` removes: the WhiteSpace and
      LineTerminator code points of ECMAScript. */
  predicate IsSpace(c: char) {
    ('\U{2000}' <= c <= '\U{200A}') || Among(c, SpaceChars)
  }

  /** The white space and line terminators outside the range U+2000 to
      U+200A. */
  const SpaceChars: seq<char> := [
    ' ', '\t', '\n', '\r', '\U{000B}', '\U{000C}', '\U{00A0}', '\U{1680}',
    '\U{2028}', '\U{2029}', '\U{202F}', '\U{205F}', '\U{3000}', '\U{FEFF}'
  ]

  /** `c` is one of `cs`. Written recursively so that the verifier unfolds it
      only as far as a proof needs. */
  predicate Among(c: char, cs: seq<char>) {
    |cs| > 0 && (cs[0] == c || Among(c, cs[1..]))
  }

  /** The first position at or after `i` that does not hold a space, or
      `|s|`. */
  function SkipSpaces(s: string, i: nat): (j: nat)
    requires i <= |s|
    ensures i <= j <= |s|
    ensures forall k :: i <= k < j ==> IsSpace(s[k])
    ensures j < |s| ==> !IsSpace(s[j])
    decreases |s| - i
  {
    if i < |s| && IsSpace(s[i]) then SkipSpaces(s, i + 1) else i
  }

  /** Moving down from `j` to no lower than `lo`, the position just past the
      last character that is not a space. */
  function SkipSpacesBack(s: string, lo: nat, j: nat): (e: nat)
    requires lo <= j <= |s|
    ensures lo <= e <= j
    ensures forall k :: e <= k < j ==> IsSpace(s[k])
    ensures e > lo ==> !IsSpace(s[e - 1])
    decreases j
  {
    if j > lo && IsSpace(s[j - 1]) then SkipSpacesBack(s, lo, j - 1) else j
  }

  /** `r` occurs in `s` at `i` with nothing but spaces before and after it. */
  predicate Framed(s: string, r: string, i: int) {
    OccursAt(s, r, i)
    && (forall k :: 0 <= k < i ==> IsSpace(s[k]))
    && (forall k :: i + |r| <= k < |s| ==> IsSpace(s[k]))
  }

  /** `s.trim()`: the infix of `s` between its leading and trailing spaces;
      empty exactly when `s` is blank. */
  function Trim(s: string): (r: string)
    ensures |r| > 0 ==> !IsSpace(r[0]) && !IsSpace(r[|r| - 1])
    ensures r == "" <==> forall k :: 0 <= k < |s| ==> IsSpace(s[k])
    ensures exists i :: Framed(s, r, i)
  {
    var start := SkipSpaces(s, 0);
    var end := SkipSpacesBack(s, start, |s|);
    assert Framed(s, s[start..end], start);
    s[start..end]
  }

  /** A string that neither starts nor ends with a space is its own trim. */
  lemma TrimUnchanged(s: string)
    requires |s| > 0 && !IsSpace(s[0]) && !IsSpace(s[|s| - 1])
    ensures Trim(s) == s
  {
    assert SkipSpaces(s, 0) == 0;
    assert SkipSpacesBack(s, 0, |s|) == |s|;
    assert s[0..|s|] == s;
  }

  /** Trimming twice is trimming once. */
  lemma TrimIdempotent(s: string)
    ensures Trim(Trim(s)) == Trim(s)
  {
    var r := Trim(s);
    if r != "" {
      TrimUnchanged(r);
    } else {
      TrimEmpty();
    }
  }

  /** There is nothing to trim in the empty string. */
  lemma TrimEmpty()
    ensures Trim("") == ""
  {
    assert SkipSpaces("", 0) == 0;
  }

  /** An ASCII decimal digit, the class `\d` matches. */
  predicate IsDigit(c: char) {
    '0' <= c <= '9'
  }

  /** `/^\d+$/.test(s)`. */
  predicate AllDigits(s: string) {
    |s| > 0 && forall k :: 0 <= k < |s| ==> IsDigit(s[k])
  }

  /** `Number(s)` for a string of decimal digits (leading zeros allowed). */
  function DigitsValue(s: string): nat
    requires forall k :: 0 <= k < |s| ==> IsDigit(s[k])
  {
    if |s| == 0 then 0
    else
      assert IsDigit(s[|s| - 1]);
      10 * DigitsValue(s[..|s| - 1]) + (s[|s| - 1] as int - '0' as int)
  }

  /** The decimal text of `n`, without leading zeros. */
  function Decimal(n: nat): (s: string)
    ensures AllDigits(s)
  {
    if n < 10 then [('0' as int + n) as char]
    else Decimal(n / 10) + [('0' as int + n % 10) as char]
  }

  /** Reading back the decimal text of `n` gives `n`. */
  lemma {:induction false} DigitsValueOfDecimal(n: nat)
    ensures DigitsValue(Decimal(n)) == n
  {
    if n >= 10 {
      var s := Decimal(n);
      assert s[..|s| - 1] == Decimal(n / 10);
      DigitsValueOfDecimal(n / 10);
    }
  }
}

=== FILE: tenant.dfy ===
/** Tenant resolution (src/utils/tenant.js): which blog a request is for,
    read from its `Host` header, and the tenant-aware data fetch built on it. */
module Tenant {
  import opened Wrappers
  import opened Strings
  import opened Json
  import opened Http

  /** What `getTenantInfo` returns. */
  datatype TenantInfo = TenantInfo(subdomain: string, domain: string, host: string, isLocalhost: bool)

  /** What `new URL(request.url)` yields: a parse failure (the constructor
      throws), or the value of its `subdomain` search parameter (`None` when
      the parameter is absent). */
  datatype RequestUrl = Unparseable | Parsed(subdomainParam: Option<string>)

  /** The subdomain used during local development when none is asked for. */
  const DemoSubdomain := "demo"

  /** A development host: the loopback name or address appears anywhere in it. */
  predicate IsLocalHost(host: string) {
    Includes(host, "localhost") || Includes(host, "127.0.0.1")
  }

  /** `url.searchParams.get('subdomain') || 'demo'`, and `'demo'` when the URL
      does not parse. */
  function LocalSubdomain(url: RequestUrl): string
  {
    match url
    case Parsed(Some(v)) => if v != "" then v else DemoSubdomain
    case _ => DemoSubdomain
  }

  /** `getTenantInfo(request)`, given the request's `Host` header (`None`
      when absent) and what its URL parses to. The host is reported unchanged
      (a missing header reads as ""), and loopback names are found anywhere
      in it, not only as a suffix. */
  function GetTenantInfo(hostHeader: Option<string>, url: RequestUrl): (t: TenantInfo)
    ensures t.host == hostHeader.GetOr("")
    ensures t.isLocalhost <==> (exists i :: OccursAt(t.host, "localhost", i)) || (exists i :: OccursAt(t.host, "127.0.0.1", i))
  {
    var host := hostHeader.GetOr("");
    if IsLocalHost(host) then
      TenantInfo(LocalSubdomain(url), "", host, true)
    else
      var parts := Split(host, '.');
      if |parts| >= 3 && parts[0] != "www" then
        TenantInfo(parts[0], Join(parts[1..], '.'), host, false)
      else if |parts| == 2 then
        TenantInfo("", host, host, false)
      else if parts[0] == "www" && |parts| >= 3 then
        TenantInfo("", Join(parts[1..], '.'), host, false)
      else
        TenantInfo("", "", host, false)
  }

  /** A development host has no domain, and its subdomain is the `subdomain`
      query parameter when that is given and non-empty, else "demo" (also
      when the URL does not parse). */
  lemma LocalTenant(hostHeader: Option<string>, url: RequestUrl)
    requires IsLocalHost(hostHeader.GetOr(""))
    ensures var t := GetTenantInfo(hostHeader, url);
      && t.isLocalhost && t.domain == ""
      && (url.Parsed? && url.subdomainParam.Some? && url.subdomainParam.value != "" ==> t.subdomain == url.subdomainParam.value)
      && (!(url.Parsed? && url.subdomainParam.Some? && url.subdomainParam.value != "") ==> t.subdomain == "demo")
  {
  }

  /** How a dotted host decomposes into its first label and the rest. */
  lemma HostShape(host: string)
    requires '.' in host
    ensures host == Split(host, '.')[0] + "." + Join(Split(host, '.')[1..], '.')
    ensures Split(host, '.')[0] == "www" <==> "www." <= host
  {
    FirstAndRest(host, '.');
    FirstLabelIs(host, '.', "www");
  }

  /** A production host of three or more labels not starting with "www" is
      its subdomain (the first label), a dot, and its domain (the rest). */
  lemma SubdomainTenant(hostHeader: Option<string>, url: RequestUrl)
    requires var host := hostHeader.GetOr("");
      !IsLocalHost(host) && Count(host, '.') >= 2 && !("www." <= host)
    ensures var t := GetTenantInfo(hostHeader, url);
      && !t.isLocalhost && '.' !in t.subdomain
      && t.subdomain + "." + t.domain == t.host
  {
    var host := hostHeader.GetOr("");
    SplitCount(host, '.');
    CountZero(host, '.');
    HostShape(host);
  }

  /** A "www." host of three or more labels has no subdomain; its domain is
      what follows "www.". */
  lemma WwwTenant(hostHeader: Option<string>, url: RequestUrl)
    requires var host := hostHeader.GetOr("");
      !IsLocalHost(host) && Count(host, '.') >= 2 && "www." <= host
    ensures var t := GetTenantInfo(hostHeader, url);
      !t.isLocalhost && t.subdomain == "" && "www." + t.domain == t.host
  {
    var host := hostHeader.GetOr("");
    SplitCount(host, '.');
    CountZero(host, '.');
    HostShape(host);
  }

  /** A production host of exactly two labels is a custom domain: no
      subdomain, the whole host as domain. */
  lemma TwoLabelTenant(hostHeader: Option<string>, url: RequestUrl)
    requires var host := hostHeader.GetOr("");
      !IsLocalHost(host) && Count(host, '.') == 1
    ensures var t := GetTenantInfo(hostHeader, url);
      !t.isLocalhost && t.subdomain == "" && t.domain == t.host
  {
    SplitCount(hostHeader.GetOr(""), '.');
  }

  /** A production host of one label, the empty host included, yields
      neither subdomain nor domain. */
  lemma SingleLabelTenant(hostHeader: Option<string>, url: RequestUrl)
    requires var host := hostHeader.GetOr("");
      !IsLocalHost(host) && Count(host, '.') == 0
    ensures var t := GetTenantInfo(hostHeader, url);
      !t.isLocalhost && t.subdomain == "" && t.domain == ""
  {
    var host := hostHeader.GetOr("");
    SplitCount(host, '.');
    assert Split(host, '.')[0] == FirstLabel(host, '.');
  }

  /** The request `fetchTenantData` makes: the URL text it parses, the
      `subdomain` search parameter it sets on it (if any), and its headers. */
  datatype TenantRequest = TenantRequest(url: string, subdomainParam: Option<string>, headers: map<string, string>)

  /** A tenant fetch: the request made and the value returned (`Null` for the
      `null` it returns on failure). */
  datatype TenantFetch = TenantFetch(request: TenantRequest, result: Value)

  /** `fetchTenantData(endpoint, tenantInfo, {headers})`, given the configured
      API base and the outcome of the `fetch`. */
  function FetchTenantData(endpoint: string, tenant: TenantInfo, configuredBase: Option<string>,
                           extraHeaders: map<string, string>, outcome: Outcome): (f: TenantFetch)
    ensures f.request.url == ApiBase(configuredBase) + endpoint
    // The tenant is named in the query only when there is one to name.
    ensures f.request.subdomainParam.Some? <==> tenant.subdomain != ""
    ensures f.request.subdomainParam.Some? ==> f.request.subdomainParam.value == tenant.subdomain
    // Caller headers win over the defaults.
    ensures "Host" in f.request.headers && "Accept" in f.request.headers
    ensures forall h :: h in extraHeaders ==> h in f.request.headers && f.request.headers[h] == extraHeaders[h]
    ensures "Host" !in extraHeaders ==> f.request.headers["Host"] == tenant.host
    ensures "Accept" !in extraHeaders ==> f.request.headers["Accept"] == "application/json"
    ensures f.request.headers.Keys == {"Accept", "Host"} + extraHeaders.Keys
    // Failures of any kind are swallowed into null rather than thrown.
    ensures outcome.Threw? || !Ok(outcome.response) || outcome.response.json.Failure? ==> f.result == Null
    ensures outcome.Got? && Ok(outcome.response) && outcome.response.json.Success? ==>
      f.result == outcome.response.json.value
  {
    var param := if tenant.subdomain != "" then Some(tenant.subdomain) else None;
    var headers := map["Accept" := "application/json", "Host" := tenant.host] + extraHeaders;
    var request := TenantRequest(ApiBase(configuredBase) + endpoint, param, headers);
    var result :=
      match outcome
      case Threw(_) => Null
      case Got(response) =>
        if !Ok(response) then Null
        else match response.json
          case Success(v) => v
          case Failure(_) => Null;
    TenantFetch(request, result)
  }
}

=== FILE: wrappers.dfy ===
/** Failure-carrying datatypes for JavaScript's absent values and thrown
    exceptions. */
module Wrappers {

  /** A value that may be absent: `None` stands for `undefined` or `null`. */
  datatype Option<+T> = None | Some(value: T) {

    /** The value, or `default` when absent (`x ?? default`). */
    function GetOr(default: T): T {
      match this
      case Some(v) => v
      case None => default
    }
  }

  /** The outcome of a computation that may throw: `Failure` carries what was
      thrown (for the source, an error's message). */
  datatype Result<+T, +E> = Success(value: T) | Failure(error: E)
}
